=== FILE: README.md ===
# webpack-sourcemap-unpacker, modelled in Dafny

`webpack-sourcemap-unpacker` is a small Node command-line tool. It reads the source maps that
Webpack emits and writes every original module back to a folder tree. Each entry of a map has
two parts: a module path (such as `webpack:///src/app.js`) and its `sourcesContent` string.
For each entry the tool:

1. matches the module path against
   `/webpack:\/\/\/([0-9a-zA-Z_/.\-]+?)(\?\w{4})?$/`, and skips the entry when nothing matches
   or when the `?xxxx` hash group matched;
2. computes a target from the captured relative path: the folder
   `resolve(join(output, dirname(rel)))`, the target file `resolve(join(folder, basename(rel)))`, and
   the extension of the base name;
3. chooses what to write by that extension:
   - `.glsl` writes the module's exported value;
   - `.jpg`, `.gif`, `.png` and `.obj` write the bytes decoded from the exported data URI;
     when the URI does not decode, they write the raw entry to the target with `.js`
     appended;
   - any other extension writes the raw entry unchanged.

The model is four modules plus a small `Option` type:

- `ModulePattern` (`module_pattern.dfy`) models the regular expression. An operational
  matcher follows how a JavaScript engine backtracks: no start anchor, a lazy group 1 and a
  greedy optional group 2. It is proved equal to a declarative reading of the pattern. The
  proofs also show that a match is unique and that it starts at the last `webpack:///` in
  the path.
- `PosixPath` (`posix_path.dfy`) models the parts of Node's POSIX `path` module the tool
  calls: `dirname`, `basename`, `extname`, `join` and `resolve`, with the `normalize` that
  `join` applies. Paths become
  segment lists, which one stack machine rewrites. The working directory is a parameter.
- `ContentDecoder` (`content_decoder.dfy`) models the extension switch. Evaluating a module
  and `data-uri-to-buffer` are parameters, held in a `Foreign` record. A throw from the
  decoder is `None`.
- `Unpacker` (`unpacker.dfy`) models the per-entry decision and the loop over one map.

The main results:

- An entry is written exactly when its module path matches without the hash group.
- The target is `resolve(output + "/" + rel)`, so the `dirname`/`basename` split changes
  nothing. The file written is that target, or the target plus `.js` in the binary fallback.
- A relative path without `..` stays under the output root, while `../name` lands beside it.
- What is written follows the extension switch, including the `.js` fallback.

Three facts about the code shape the model:

- When a binary asset does not decode, the code writes the raw `sourcesContent` entry
  (`sources[idx]`) to the target plus `.js`.
- The pattern has no `^` anchor. `webpack:///` need not open the module path, and the match
  starts at its last occurrence.
- The callback does not confine its targets to the output root. A captured relative path
  may contain `..` segments (`.` is in the character class), and `TargetMayLeaveOutput`
  shows such a path leaving the root. Whether such a path reaches the callback depends on
  how `source-map` normalises `_absoluteSources`, which is not part of this model.

`Env.output` is the output root after the default on line 20 has been applied.
`OutputRoot` models that default, and `CommandLineTarget` links the two: with
`Env(cwd, OutputRoot(option))`, the target of `rel` is `resolve(root + "/" + rel)`.

## Model

| member | source | states |
|---|---|---|
| ModulePattern.LazyFrom | webpack-sourcemap-unpacker.js:34 | Once group 1 holds a non-empty prefix of path characters, the engine's backtracking run (hash first, then end of input, then one more character) returns a capture that splits the text as the pattern demands. It returns none only when no such split exists. |
| ModulePattern.LazyMatch | webpack-sourcemap-unpacker.js:34 | The text after the scheme has a capture exactly when the engine finds one, and what it finds is a valid split into relative path and optional hash. |
| ModulePattern.SearchFrom | webpack-sourcemap-unpacker.js:34 | Scanning start positions left to right returns a match at or after the first position, with no match at any earlier position. It returns none only when no position matches. |
| ModulePattern.MatchModulePath | webpack-sourcemap-unpacker.js:34-35 | `match` returns null exactly when no position of the path starts the scheme followed by a valid capture. Otherwise it returns the leftmost such match. |
| ModulePattern.CaptureIsUnique | webpack-sourcemap-unpacker.js:34 | The text after the scheme splits into group 1 and group 2 in at most one way. |
| ModulePattern.NoSchemeAfterMatch | webpack-sourcemap-unpacker.js:34 | After a match position, `webpack:///` occurs nowhere else in the path. |
| ModulePattern.MatchIsUnique | webpack-sourcemap-unpacker.js:34 | Two matches of one path have the same start and the same captures. |
| ModulePattern.MatchFollowsLastScheme | webpack-sourcemap-unpacker.js:34-35 | The path is everything before the match, then `webpack:///`, group 1 and group 2. No later `webpack:///` exists. |
| ModulePattern.PlainPathMatches | webpack-sourcemap-unpacker.js:34 | `webpack:///` followed by path characters matches at 0, with that whole text as group 1 and no hash. |
| ModulePattern.HashedPathMatches | webpack-sourcemap-unpacker.js:34 | `webpack:///`, path characters and `?` with four word characters match at 0, with the hash in group 2. |
| ModulePattern.ForeignCharPathNeverMatches | webpack-sourcemap-unpacker.js:34-35 | If the first character after `webpack:///` is outside the class (`:` included) and the rest is path characters, the path never matches. |
| ModulePattern.NoLaterScheme | webpack-sourcemap-unpacker.js:34 | After a leading `webpack:///` followed by text without `:`, the scheme occurs at no later position. |
| ModulePattern.MalformedHashNeverMatches | webpack-sourcemap-unpacker.js:34-35 | `webpack:///`, path characters, then a `?` that does not begin exactly four word characters up to the end (and no `:`): the path never matches. |
| PosixPath.SplitAppend | webpack-sourcemap-unpacker.js:42 | Splitting on `/` distributes over a slash. |
| PosixPath.JoinSplit | webpack-sourcemap-unpacker.js:42 | Joining a path's segments with `/` gives the path back. |
| PosixPath.SplitJoin | webpack-sourcemap-unpacker.js:42 | Splitting a join of slash-free segments gives the segments back. |
| PosixPath.ReduceAppend | webpack-sourcemap-unpacker.js:42 | Normalising a concatenation of segment lists is normalising the first list, then continuing with the second. |
| PosixPath.ReduceSignificant | webpack-sourcemap-unpacker.js:42 | Empty and `.` segments never change the normalised result. |
| PosixPath.ReduceWithoutParent | webpack-sourcemap-unpacker.js:42 | Without `..` segments, normalising only appends the significant segments. |
| PosixPath.ReduceStaysCanonical | webpack-sourcemap-unpacker.js:42 | At the root, normalisation keeps only real names. |
| PosixPath.StepThenRoot | webpack-sourcemap-unpacker.js:42 | One normalisation step on a relative stack, then reduction at a root, equals reducing the stack at the root and then taking that one segment. |
| PosixPath.ReduceRelativeThenRoot | webpack-sourcemap-unpacker.js:42 | Normalising a relative path first (keeping leading `..`) and then resolving it at a root gives the same names as resolving the raw segments. |
| PosixPath.Basename | webpack-sourcemap-unpacker.js:43 | The base name contains no `/`. Its partner `BasenameIsLastNonEmptySegment` pins it as the last non-empty segment; `BasenameEmptyIffSlashes`, `LastSegmentIsBasename` and `DirnameBasenameSegments` follow. |
| PosixPath.Dirname | webpack-sourcemap-unpacker.js:42 | The directory name is never empty (`.` stands for none). Its partners are `DirnameBasenameOfChild`, `DirnameBasenameOfName` and `DirnameBasenameSegments`, which with `BasenameIsLastNonEmptySegment` fixes its significant segments. |
| PosixPath.BasenameEmptyIffSlashes | webpack-sourcemap-unpacker.js:43 | `basename` is empty exactly when the path consists only of slashes. |
| PosixPath.DirnameBasenameSegments | webpack-sourcemap-unpacker.js:42-43 | `dirname` and `basename` together hold exactly the significant segments of the path, in order. |
| PosixPath.LastSegmentIsBasename | webpack-sourcemap-unpacker.js:43 | An ordinary base name is the last significant segment of its path. |
| PosixPath.BasenameIsLastNonEmptySegment | webpack-sourcemap-unpacker.js:43 | `basename` is the last non-empty `/`-separated segment of the path, or empty when there is none, so trailing slashes are ignored. |
| PosixPath.DirnameBasenameOfChild | webpack-sourcemap-unpacker.js:42-43 | For `dir/name` with a slash-free name and a directory part that is neither empty nor `/`, `dirname` is `dir` and `basename` is `name`. |
| PosixPath.DirnameBasenameOfName | webpack-sourcemap-unpacker.js:42-43 | For a single slash-free name, `dirname` is `.` and `basename` is the name. |
| PosixPath.Extname | webpack-sourcemap-unpacker.js:44 | `extname` is a proper suffix of the base name that starts with its only `.`. It is non-empty exactly when the base name has a `.` after its first character and is not `..`. |
| PosixPath.ResolveRendersResolved | webpack-sourcemap-unpacker.js:42 | `resolve` renders, as `/` plus the names, the canonical names of the place a path denotes. |
| PosixPath.ResolvedOfCanonical | webpack-sourcemap-unpacker.js:46 | A canonical absolute path denotes its own names, whatever the working directory. |
| PosixPath.ResolvedChildOfCanonical | webpack-sourcemap-unpacker.js:46 | Joining one slash-free segment to a canonical absolute path and resolving the result takes one normalisation step from that path's names. |
| PosixPath.Normalize | webpack-sourcemap-unpacker.js:42 | `normalize` never returns an empty path and keeps an absolute path absolute. Its partner is `NormalizeKeepsPlace`. |
| PosixPath.Join | webpack-sourcemap-unpacker.js:42 | `join` never returns an empty path and keeps an absolute first argument absolute. Its partner is `JoinKeepsPlace`. |
| PosixPath.Resolve | webpack-sourcemap-unpacker.js:42 | `resolve` always returns an absolute path. Its partners are `ResolveRendersResolved`, `ResolvedOfCanonical` and `ResolvedAppend`. |
| PosixPath.NormalizeKeepsPlace | webpack-sourcemap-unpacker.js:42 | `normalize` never changes the place a non-empty path denotes. |
| PosixPath.JoinKeepsPlace | webpack-sourcemap-unpacker.js:42 | For a non-empty `a`, `join(a, b)` denotes the same place as `a/b`. |
| PosixPath.ResolvedAppend | webpack-sourcemap-unpacker.js:46 | For a non-empty `a`, resolving `a/b` means resolving `a`, then walking `b` from there. |
| ContentDecoder.DecodeContent | webpack-sourcemap-unpacker.js:49-73 | The file is the target, or the target plus `.js` exactly when the extension is binary and the data URI does not decode. The raw entry is written exactly when the extension is not `.glsl` and is either not binary or fails to decode. Each payload is the value it names, and the exported value is written exactly for `.glsl`. |
| ContentDecoder.OtherExtensionsAreVerbatim | webpack-sourcemap-unpacker.js:71-72 | Any extension besides the five `case` labels writes the raw entry to the target. |
| ContentDecoder.ShaderIsExportedValue | webpack-sourcemap-unpacker.js:52-54 | `.glsl` writes the exported value to the target. |
| ContentDecoder.BinaryIsDecodedOrFallsBack | webpack-sourcemap-unpacker.js:57-70 | A binary extension writes the decoded bytes to the target. If decoding throws, it writes the raw entry to the target plus `.js`. |
| ContentDecoder.UpperCaseExtensionIsVerbatim | webpack-sourcemap-unpacker.js:50-73 | `.PNG` and `.GLSL` are not recognised, so they are written verbatim. |
| Unpacker.OutputRoot | webpack-sourcemap-unpacker.js:20 | The output root is never empty, a given non-empty `-o` value is kept, and a missing or empty one becomes `.`. |
| Unpacker.CommandLineTarget | webpack-sourcemap-unpacker.js:20-46 | With the output root taken from the `-o` value or its `.` default, the target is `resolve(root/rel)` and the folder is `resolve(root/dirname(rel))`. |
| Unpacker.ResolveTarget | webpack-sourcemap-unpacker.js:42-46 | The folder and the target are absolute paths. Its partners are `TargetIsResolvedRelativePath`, `TargetStaysUnderOutput` and `TargetMayLeaveOutput`. |
| Unpacker.ProcessEntry | webpack-sourcemap-unpacker.js:33-77 | A skip names the entry's own path, and a write goes to an absolute folder and file. Its partners are `SkippedIffNoPlainMatch`, `WrittenEntryShape` and `PlainModuleIsWritten`. |
| Unpacker.SourceAt | webpack-sourcemap-unpacker.js:53-72 | `sources[idx]` is the entry at `idx`, and `undefined` past the end of the list. |
| Unpacker.UnpackFrom | webpack-sourcemap-unpacker.js:33 | From index `idx` on, there is one outcome per entry, each the per-entry decision for that entry. |
| Unpacker.Unpack | webpack-sourcemap-unpacker.js:33-77 | There is one outcome per entry, in order. Outcome `k` is the decision for path `k` and `sources[k]`, or `undefined` past the end of `sourcesContent`. |
| Unpacker.UnmatchedPathIsSkipped | webpack-sourcemap-unpacker.js:35-39 | A path the pattern does not match is skipped under its own name. |
| Unpacker.HashedPathIsSkipped | webpack-sourcemap-unpacker.js:35-39 | A path that matches with the hash group is skipped. |
| Unpacker.SkippedIffNoPlainMatch | webpack-sourcemap-unpacker.js:34-40 | An entry is written exactly when some match without the hash exists. A skip names the entry's own path. |
| Unpacker.WrittenEntryShape | webpack-sourcemap-unpacker.js:34-76 | A written entry's path ends with its last `webpack:///` followed by a non-empty relative path of path characters. Its folder is that path's target folder, and its file and content are what the extension switch picks for that target, wherever the match starts. |
| Unpacker.TargetIsResolvedRelativePath | webpack-sourcemap-unpacker.js:42-46 | For a non-empty output root, the target is `resolve(output/rel)` and the folder is `resolve(output/dirname(rel))`. |
| Unpacker.TargetStaysUnderOutput | webpack-sourcemap-unpacker.js:42-46 | For a non-empty output root and a relative path without `..` segments, the target's names are the output root's names followed by the relative path's significant segments. |
| Unpacker.TargetMayLeaveOutput | webpack-sourcemap-unpacker.js:42-46 | With an output root `out` that is a single name in the working directory, the target of `../name` lies beside `out`, not inside it. |
| Unpacker.TargetStepsFromFolder | webpack-sourcemap-unpacker.js:42-46 | The folder resolves to canonical names, and the target is one normalisation step from them by the base name. |
| Unpacker.DotBaseNameTargetIsFolder | webpack-sourcemap-unpacker.js:42-46 | When the base name is `.` (`src/.`), the target is the folder itself. |
| Unpacker.DotDotBaseNameTargetIsParent | webpack-sourcemap-unpacker.js:42-46 | When the base name is `..` (`src/..`), the target is the folder's parent, or the root when the folder is the root. |
| Unpacker.WrittenFileEndsWithBasename | webpack-sourcemap-unpacker.js:43-46 | For a non-empty output root, a relative path without `..` segments and an ordinary base name (not empty, `.` or `..`), the target's last name is that base name. |
| Unpacker.WrittenFileIsNamedByBasename | webpack-sourcemap-unpacker.js:43-46 | Under the same conditions (non-empty output root, no `..` segments, an ordinary base name), the target's last name is the base name, and the switch's extension is that name's extension. |
| Unpacker.ChildFileIsNamed | webpack-sourcemap-unpacker.js:42-46 | For a non-empty output root and `dir/name` without `..` segments, where `name` is an ordinary slash-free name and `dir` is neither empty nor `/` (`src/icon.png`), the target's last name is `name`, and the switch sees `extname(name)`. |
| Unpacker.PlainModuleIsWritten | webpack-sourcemap-unpacker.js:34-76 | `webpack:///rel` is written to rel's target folder, with the file and content the switch picks. |
| Unpacker.SameRelativePathSameFile | webpack-sourcemap-unpacker.js:42-76 | Two written entries with the same relative path write the same folder. They write the same file unless the extension is binary and only one of the two data URIs decodes, so the later entry overwrites the earlier. |
| Unpacker.Writes | webpack-sourcemap-unpacker.js:75-76 | The writes of a map are its `Write` outcomes, each exactly as many times as it occurs among the outcomes, and there are no more of them than entries. |
| Unpacker.EachEntryOneOutcome | webpack-sourcemap-unpacker.js:33-77 | Each entry has exactly one outcome: a skip naming its path, or a write into its match's target folder of the switch's content, at the target plus `.js` exactly when the extension is binary and the data URI does not decode. |
| Unpacker.VerbatimModuleIsWritten | webpack-sourcemap-unpacker.js:71-76 | A plain module with an unrecognised extension is written raw to its target. |
| Unpacker.BinaryModuleIsWritten | webpack-sourcemap-unpacker.js:57-76 | A plain module with a binary extension is written as the decoded bytes to its target when the data URI decodes, and as the raw entry to the target plus `.js` when it does not. |
| Unpacker.HashedModuleIsSkipped | webpack-sourcemap-unpacker.js:34-39 | `webpack:///rel?xxxx` is skipped. |
| Unpacker.ForeignCharModuleIsSkipped | webpack-sourcemap-unpacker.js:34-39 | A path such as `webpack:///~/...` or `webpack:///:x` is skipped under its own name. |
| Unpacker.MalformedHashModuleIsSkipped | webpack-sourcemap-unpacker.js:34-39 | `webpack:///` followed by non-empty path characters and then a `?` tail that has no `:` and is not exactly four word characters up to the end is skipped under its own name. |
| Unpacker.FourEntryExample | webpack-sourcemap-unpacker.js:33-77 | A map with a plain module, an image, a hashed duplicate and a `~` path writes exactly the first two entries: the raw module to its target, and the image as decoded bytes at its target or as the raw entry at its target plus `.js`, by its decode outcome. It skips the other two. |

## Left out

- Command-line parsing with `commander`, the version flag and `program.parse` (lines 11-20 and 81) are left out. Only the output default `.` is modelled, as `OutputRoot`.
- The glob over input files, the "no input" warning, and reading and parsing each map with `SourceMapConsumer` (lines 21-32) are I/O and a library. The model starts from one map's `_absoluteSources` and `sourcesContent`.
- A `sourcesContent` that is `null` is not modelled: the tool would throw at `sources[idx]`. The model treats an index past the end of the list as `undefined`.
- Several maps are processed concurrently, because the async `forEach` callbacks are not awaited. The model takes one map at a time.
- `fse.ensureDirSync` and `fse.writeFileSync` (lines 75-76) are file-system effects. A `Write` outcome records the folder to create, the file, and the value passed. `writeFileSync` throws on `undefined` or a non-string, non-buffer value; that throw and its effect on later entries are not modelled.
- Any exception thrown inside the `paths.forEach` callback ends the loop over that map, so the entries after it get no outcome. `Unpack` and `EachEntryOneOutcome` assume that nothing throws. One such throw follows from the path computation alone: when the base name of the relative path is `.` or `..` (`webpack:///src/.`), the target is the folder or its parent (`DotBaseNameTargetIsFolder`, `DotDotBaseNameTargetIsParent`), and `writeFileSync` fails on a directory.
- `evalModule` (lines 83-90) runs `eval` on the entry. `data-uri-to-buffer` is an external package. Both are parameters of the model (the `Foreign` record). A throw inside the evaluation is not modelled. A throw in the decoder is the `None` branch.
- The console messages (lines 23, 26, 28, 38, 47 and 65) are output only. The skip message corresponds to the `Skip` outcome.
- `PosixPath.Resolve` models one-argument `path.resolve` only, with the working directory as a parameter. Node's Windows path functions are not modelled.
- ContentDecoder.DecodeContent: the bytes come from the `Foreign` decoder. The base64 and percent-decoding inside `data-uri-to-buffer` is not part of this model.
- Unpacker.FourEntryExample: it leaves the first character after the scheme open; it need only be outside the path class, so `~` is one instance.
- `-o` given without a value makes `commander` pass `true`, and `path.join` then throws. The model takes the output option as a string.

=== FILE: content_decoder.dfy ===
/**
 The extension `switch` of the unpacker: how the content written for a module is chosen from
 its raw `sourcesContent` entry. Two calls leave the model's reach and are parameters, held in
 a `Foreign` record: evaluating the entry as a wrapper module to read its `module.exports`,
 and the `data-uri-to-buffer` package, whose throwing is modelled as `None`.
 */
module ContentDecoder {
  import opened Optional

  newtype byte = x: int | 0 <= x < 256

  /** The value a wrapper module leaves in `module.exports`, as far as the unpacker cares:
      nothing, a string (the usual case), or some other JavaScript value. */
  datatype JsValue = Undefined | Str(text: string) | NonString

  /** The two calls the unpacker makes into code this model does not see. */
  datatype Foreign = Foreign(
    /** `evalModule(sources[idx]).exports`; `None` is an `undefined` entry, which the
        template literal turns into the text `undefined`. */
    evalExports: Option<string> -> JsValue,
    /** `dataUriToBuffer(v)`: the decoded bytes, or `None` where the package throws. */
    dataUriToBuffer: JsValue -> Option<seq<byte>>)

  /** The value handed to `fse.writeFileSync`. */
  datatype Payload =
    | RawSource(source: Option<string>)   // `sources[idx]` itself
    | ExportedValue(value: JsValue)       // what the wrapper module exported
    | DecodedBytes(bytes: seq<byte>)      // the buffer decoded from a data URI

  /** Where the content goes, and what it is. */
  datatype Decoded = Decoded(path: string, payload: Payload)

  /** The text appended to the target of a binary asset whose data URI does not decode. */
  const FallbackSuffix: string := ".js"

  /** The `case` labels of the switch. `switch` compares with `===`, so matching is exact
      and case-sensitive. */
  const TextExtension: string := ".glsl"
  const BinaryExtensions: set<string> := {".jpg", ".gif", ".png", ".obj"}

  /** The switch on the extension of the target file. */
  function DecodeContent(ops: Foreign, ext: string, target: string, source: Option<string>): (d: Decoded)
    ensures d.path == target || d.path == target + FallbackSuffix
    ensures d.path == target + FallbackSuffix <==>
      ext in BinaryExtensions && ops.dataUriToBuffer(ops.evalExports(source)).None?
    ensures d.payload.RawSource? <==>
      ext != TextExtension && (ext !in BinaryExtensions || ops.dataUriToBuffer(ops.evalExports(source)).None?)
    ensures d.payload.ExportedValue? <==> ext == TextExtension
    ensures d.payload.RawSource? ==> d.payload.source == source
    ensures d.payload.ExportedValue? ==> d.payload.value == ops.evalExports(source)
    ensures d.payload.DecodedBytes? ==> Some(d.payload.bytes) == ops.dataUriToBuffer(ops.evalExports(source))
  {
    if ext == TextExtension then
      Decoded(target, ExportedValue(ops.evalExports(source)))
    else if ext in BinaryExtensions then
      var exported := ops.evalExports(source);
      match ops.dataUriToBuffer(exported)
      case Some(buffer) => Decoded(target, DecodedBytes(buffer))
      case None => Decoded(target + FallbackSuffix, RawSource(source))
    else
      Decoded(target, RawSource(source))
  }

  /** Any extension other than the five `case` labels, including an empty one and an
      upper-case variant such as `.PNG`, writes the raw entry unchanged to the target. */
  lemma OtherExtensionsAreVerbatim(ops: Foreign, ext: string, target: string, source: Option<string>)
    requires ext != TextExtension && ext !in BinaryExtensions
    ensures DecodeContent(ops, ext, target, source) == Decoded(target, RawSource(source))
  {
  }

  /** A `.glsl` target receives the wrapper's exported value, at the target. */
  lemma ShaderIsExportedValue(ops: Foreign, target: string, source: Option<string>)
    ensures DecodeContent(ops, ".glsl", target, source) == Decoded(target, ExportedValue(ops.evalExports(source)))
  {
  }

  /** A binary target receives the decoded bytes when the exported value decodes; otherwise
      the raw entry, under the target name with `.js` appended. */
  lemma BinaryIsDecodedOrFallsBack(ops: Foreign, ext: string, target: string, source: Option<string>)
    requires ext in BinaryExtensions
    ensures var d := DecodeContent(ops, ext, target, source);
      match ops.dataUriToBuffer(ops.evalExports(source))
      case Some(buffer) => d == Decoded(target, DecodedBytes(buffer))
      case None => d == Decoded(target + FallbackSuffix, RawSource(source))
  {
  }

  /** Upper-case extensions are not recognised. */
  lemma UpperCaseExtensionIsVerbatim(ops: Foreign, target: string, source: Option<string>)
    ensures DecodeContent(ops, ".PNG", target, source) == Decoded(target, RawSource(source))
    ensures DecodeContent(ops, ".GLSL", target, source) == Decoded(target, RawSource(source))
  {
  }
}

=== FILE: module_pattern.dfy ===
/**
 The module-path pattern of the unpacker,

   /webpack:\/\/\/([0-9a-zA-Z_/.\-]+?)(\?\w{4})?$/

 matched the way a JavaScript engine runs `String.prototype.match` with it: no `^` anchor, so
 every start position is tried from left to right; at each one the lazy group 1 is grown one
 character at a time, and after each growth the greedy optional group 2 is tried before the
 empty alternative, both followed by end of input.

 The operational matcher (`LazyFrom`, `SearchFrom`, `MatchModulePath`) is proved equal to a
 declarative reading (`IsCapture`, `MatchesAt`): some suffix of the path is the scheme, one or
 more path characters, and optionally `?` with four word characters.
 */
module ModulePattern {
  import opened Optional

  /** The literal text `webpack:///` that opens the matched suffix. */
  const Scheme: string := "webpack:///"

  /** Membership in the class `[0-9a-zA-Z_/.\-]`. */
  predicate IsPathChar(c: char) {
    ('0' <= c <= '9') || ('a' <= c <= 'z') || ('A' <= c <= 'Z') || c == '_' || c == '/' || c == '.' || c == '-'
  }

  /** Membership in `\w`, that is `[A-Za-z0-9_]`. */
  predicate IsWordChar(c: char) {
    ('0' <= c <= '9') || ('a' <= c <= 'z') || ('A' <= c <= 'Z') || c == '_'
  }

  predicate AllPathChars(s: string) {
    forall k :: 0 <= k < |s| ==> IsPathChar(s[k])
  }

  /** Text matched by group 2, `\?\w{4}`. */
  predicate IsHashSuffix(s: string) {
    |s| == 5 && s[0] == '?' && forall k :: 1 <= k < 5 ==> IsWordChar(s[k])
  }

  /** What the two groups captured: group 1 (the relative module path) and, when it
      participated, group 2 (the `?xxxx` hash suffix). */
  datatype Capture = Capture(relative: string, hash: Option<string>)

  /** The input consumed by group 2: nothing when it did not participate. */
  function HashText(h: Option<string>): string {
    match h
    case None => ""
    case Some(x) => x
  }

  /** Declarative reading of `([0-9a-zA-Z_/.\-]+?)(\?\w{4})?$` on the text `t` that follows
      the scheme: `t` splits into a non-empty run of path characters and an optional hash. */
  predicate IsCapture(t: string, c: Capture) {
    && t == c.relative + HashText(c.hash)
    && |c.relative| >= 1
    && AllPathChars(c.relative)
    && (c.hash.Some? ==> IsHashSuffix(c.hash.value))
  }

  /** `webpack:///` occurs in `p` at position `i`. */
  predicate SchemeAt(p: string, i: nat) {
    i + |Scheme| <= |p| && p[i..i + |Scheme|] == Scheme
  }

  /** The whole regex matches `p` from position `i`, with captures `c`. */
  predicate MatchesAt(p: string, i: nat, c: Capture) {
    SchemeAt(p, i) && IsCapture(p[i + |Scheme|..], c)
  }

  /** A regex match: where it starts in the module path, and what it captured. */
  datatype Match = Match(start: nat, capture: Capture)

  /** Any capture of `t` is at least as long as a prefix of `t` made only of path
      characters: `?` is not a path character, so a shorter group 1 cannot be followed by
      the hash, and it cannot be followed by the end of input either. */
  lemma CaptureCoversPathPrefix(t: string, c: Capture, k: nat)
    requires IsCapture(t, c)
    requires k <= |t| && AllPathChars(t[..k])
    ensures |c.relative| >= k
    ensures |c.relative| == k ==> t[k..] == HashText(c.hash)
  {
    var n := |c.relative|;
    assert t[n..] == HashText(c.hash);
  }

  /** When group 1 holds `t[..k]`, neither alternative of group 2 reaches the end of input,
      and `t[k]` cannot extend group 1, no capture of `t` exists. */
  lemma NoCaptureWhenStuck(t: string, k: nat)
    requires 1 <= k < |t| && AllPathChars(t[..k])
    requires !IsHashSuffix(t[k..])
    requires !IsPathChar(t[k])
    ensures forall c :: !IsCapture(t, c)
  {
    forall c | IsCapture(t, c)
      ensures false
    {
      CaptureCoversPathPrefix(t, c, k);
    }
  }

  /** The backtracking run of the engine once group 1 holds `t[..k]`: the greedy `?` tries
      group 2 first, then the empty alternative, and only then does the lazy `+?` take one
      more character. */
  function LazyFrom(t: string, k: nat): (r: Option<Capture>)
    requires 1 <= k <= |t| && AllPathChars(t[..k])
    ensures r.Some? ==> IsCapture(t, r.value)
    ensures r.None? ==> forall c :: !IsCapture(t, c)
    decreases |t| - k
  {
    if IsHashSuffix(t[k..]) then
      Some(Capture(t[..k], Some(t[k..])))
    else if k == |t| then
      Some(Capture(t, None))
    else if IsPathChar(t[k]) then
      assert t[..k + 1] == t[..k] + [t[k]];
      LazyFrom(t, k + 1)
    else
      NoCaptureWhenStuck(t, k);
      None
  }

  /** The engine's run of both groups on the text after the scheme. */
  function LazyMatch(t: string): (r: Option<Capture>)
    ensures r.Some? <==> exists c :: IsCapture(t, c)
    ensures r.Some? ==> IsCapture(t, r.value)
  {
    if |t| >= 1 && IsPathChar(t[0]) then
      LazyFrom(t, 1)
    else
      assert forall c :: IsCapture(t, c) ==> t[0] == c.relative[0];
      None
  }

  /** The engine's scan over start positions `i`, `i + 1`, ...: the first position where
      the scheme and both groups match wins. */
  function SearchFrom(p: string, i: nat): (r: Option<Match>)
    requires i <= |p|
    ensures r.Some? ==> i <= r.value.start && MatchesAt(p, r.value.start, r.value.capture)
    ensures r.Some? ==> forall j, c :: i <= j < r.value.start ==> !MatchesAt(p, j, c)
    ensures r.None? ==> forall j, c :: i <= j ==> !MatchesAt(p, j, c)
    decreases |p| - i
  {
    if i + |Scheme| > |p| then
      None
    else if SchemeAt(p, i) then
      match LazyMatch(p[i + |Scheme|..])
      case Some(c) => Some(Match(i, c))
      case None => SearchFrom(p, i + 1)
    else
      SearchFrom(p, i + 1)
  }

  /** `p.match(pattern)`: `None` is JavaScript's `null`. */
  function MatchModulePath(p: string): (r: Option<Match>)
    ensures r.None? <==> forall j: nat, c :: !MatchesAt(p, j, c)
    ensures r.Some? ==> MatchesAt(p, r.value.start, r.value.capture)
    ensures r.Some? ==> forall j: nat, c :: j < r.value.start ==> !MatchesAt(p, j, c)
  {
    SearchFrom(p, 0)
  }

  /** Group 1 and group 2 are determined by the text they split: `?` cannot occur in
      group 1, so the lazy/greedy choice the engine makes is the only split there is. */
  lemma CaptureIsUnique(t: string, c: Capture, d: Capture)
    requires IsCapture(t, c) && IsCapture(t, d)
    ensures c == d
  {
    assert t[..|c.relative|] == c.relative;
    assert t[..|d.relative|] == d.relative;
    CaptureCoversPathPrefix(t, c, |d.relative|);
    CaptureCoversPathPrefix(t, d, |c.relative|);
    assert c.relative == d.relative;
    assert HashText(c.hash) == HashText(d.hash);
  }

  /** Once the pattern matches at `i`, the scheme occurs nowhere after `i`: its `:` is
      neither a path character, nor `?`, nor a word character, and the scheme cannot
      overlap itself. */
  lemma NoSchemeAfterMatch(p: string, i: nat, c: Capture, j: nat)
    requires MatchesAt(p, i, c)
    requires i < j
    ensures !SchemeAt(p, j)
  {
    if j + |Scheme| <= |p| {
      if j < i + 4 {
        assert p[j] == p[i..i + |Scheme|][j - i];
        assert p[j] != 'w';
        assert p[j..j + |Scheme|][0] != Scheme[0];
      } else {
        var t := p[i + |Scheme|..];
        var q := j + 7 - (i + |Scheme|);
        assert p[j + 7] == t[q];
        if q < |c.relative| {
          assert t[q] == c.relative[q];
        } else {
          assert t[q] == HashText(c.hash)[q - |c.relative|];
        }
        assert p[j + 7] != ':';
        assert p[j..j + |Scheme|][7] != Scheme[7];
      }
    }
  }

  /** The pattern matches a module path in at most one way: one start position, one pair
      of captures. */
  lemma MatchIsUnique(p: string, i: nat, c: Capture, j: nat, d: Capture)
    requires MatchesAt(p, i, c) && MatchesAt(p, j, d)
    ensures i == j && c == d
  {
    if i < j {
      NoSchemeAfterMatch(p, i, c, j);
    } else if j < i {
      NoSchemeAfterMatch(p, j, d, i);
    } else {
      CaptureIsUnique(p[i + |Scheme|..], c, d);
    }
  }

  /** The match begins at the last occurrence of `webpack:///` in the module path, and what
      follows that occurrence is exactly group 1 followed by group 2. */
  lemma MatchFollowsLastScheme(p: string)
    requires MatchModulePath(p).Some?
    ensures var m := MatchModulePath(p).value;
      && p == p[..m.start] + Scheme + m.capture.relative + HashText(m.capture.hash)
      && forall j: nat :: m.start < j ==> !SchemeAt(p, j)
  {
    var m := MatchModulePath(p).value;
    assert p == p[..m.start] + p[m.start..m.start + |Scheme|] + p[m.start + |Scheme|..];
    forall j: nat | m.start < j
      ensures !SchemeAt(p, j)
    {
      NoSchemeAfterMatch(p, m.start, m.capture, j);
    }
  }

  /** `webpack:///` followed by path characters only is captured whole, from position 0. */
  lemma PlainPathMatches(rel: string)
    requires |rel| >= 1 && AllPathChars(rel)
    ensures MatchModulePath(Scheme + rel) == Some(Match(0, Capture(rel, None)))
  {
    var p := Scheme + rel;
    assert p[..|Scheme|] == Scheme && p[|Scheme|..] == rel;
    assert rel + HashText(None) == rel;
    assert MatchesAt(p, 0, Capture(rel, None));
    var m := MatchModulePath(p).value;
    MatchIsUnique(p, 0, Capture(rel, None), m.start, m.capture);
  }

  /** `webpack:///`, path characters, then `?` and four word characters: group 2 takes the
      hash. */
  lemma HashedPathMatches(rel: string, hash: string)
    requires |rel| >= 1 && AllPathChars(rel) && IsHashSuffix(hash)
    ensures MatchesAt(Scheme + rel + hash, 0, Capture(rel, Some(hash)))
  {
    var p := Scheme + rel + hash;
    assert p[..|Scheme|] == Scheme && p[|Scheme|..] == rel + hash;
  }

  /** In `webpack:///` followed by text without a `:`, the scheme occurs only at 0: every
      later occurrence would need a `:` seven characters after its start. */
  lemma NoLaterScheme(t: string, i: nat)
    requires forall k :: 0 <= k < |t| ==> t[k] != ':'
    requires 0 < i
    ensures !SchemeAt(Scheme + t, i)
  {
    var p := Scheme + t;
    if i + |Scheme| <= |p| {
      if i + 7 < |Scheme| {
        assert p[i + 7] == Scheme[i + 7];
      } else {
        assert p[i + 7] == t[i + 7 - |Scheme|];
      }
      assert p[i..i + |Scheme|][7] != Scheme[7];
    }
  }

  /** `webpack:///` followed by a character outside the class (`~`, `:`, ...) and then path
      characters never matches: group 1 cannot start, and no later `webpack:///` exists. A
      later one would have to start with a `w` inside the scheme or at that character, or
      find its `:` among the path characters. */
  lemma ForeignCharPathNeverMatches(ch: char, rest: string)
    requires !IsPathChar(ch) && AllPathChars(rest)
    ensures forall i: nat, c :: !MatchesAt(Scheme + [ch] + rest, i, c)
  {
    var p := Scheme + [ch] + rest;
    forall i: nat, c
      ensures !MatchesAt(p, i, c)
    {
      if i == 0 {
        assert p[|Scheme|..][0] == ch;
      } else if i + |Scheme| <= |p| {
        if i < |Scheme| {
          assert p[i] == Scheme[i];
          assert p[i..i + |Scheme|][0] != Scheme[0];
        } else if i == |Scheme| {
          assert p[i] == ch;
          assert p[i..i + |Scheme|][0] != Scheme[0];
        } else {
          assert p[i + 7] == rest[i + 7 - |Scheme| - 1];
          assert p[i..i + |Scheme|][7] != Scheme[7];
        }
      }
    }
  }

  /** `webpack:///`, path characters, then a `?` that does not start exactly four word
      characters up to the end (and no `:` anywhere): the path never matches. */
  lemma MalformedHashNeverMatches(rel: string, tail: string)
    requires |rel| >= 1 && AllPathChars(rel)
    requires |tail| >= 1 && tail[0] == '?' && !IsHashSuffix(tail)
    requires forall k :: 0 <= k < |tail| ==> tail[k] != ':'
    ensures forall i: nat, c :: !MatchesAt(Scheme + rel + tail, i, c)
  {
    var t := rel + tail;
    assert Scheme + rel + tail == Scheme + t;
    assert forall k :: 0 <= k < |t| ==> t[k] != ':' by {
      forall k | 0 <= k < |t|
        ensures t[k] != ':'
      {
        if k < |rel| {
          assert t[k] == rel[k];
        } else {
          assert t[k] == tail[k - |rel|];
        }
      }
    }
    forall i: nat, c
      ensures !MatchesAt(Scheme + t, i, c)
    {
      if i == 0 {
        var n := |rel|;
        assert (Scheme + t)[|Scheme|..] == t;
        assert t[..n] == rel && t[n..] == tail && t[n] == '?';
        NoCaptureWhenStuck(t, n);
      } else {
        NoLaterScheme(t, i);
      }
    }
  }
}

=== FILE: optional.dfy ===
/** The Some/None datatype used wherever the original program has a value that may be absent
    (a failed regex match, an `undefined` entry of `sourcesContent`, a data URI that does not decode). */
module Optional {

  datatype Option<+T> = None | Some(value: T)
}

=== FILE: posix_path.dfy ===
/**
 The part of Node's POSIX `path` module that the unpacker calls: `dirname`, `basename`,
 `extname`, `join` and `resolve` (with `normalize`, which `join` applies). Paths are split
 into segments on `/`; `normalize` and `resolve` both rewrite a segment list with one
 stack machine (`Step`): empty and `.` segments vanish, `..` drops the last kept name, and a
 `..` that has nothing to drop is kept in a relative path and discarded at the root of an
 absolute one. The working directory that `resolve` falls back on is a parameter.
 */
module PosixPath {

  predicate IsAbsolute(s: string) {
    |s| > 0 && s[0] == '/'
  }

  // ---------------------------------------------------------------------------
  // Segments
  // ---------------------------------------------------------------------------

  predicate NoSlash(segs: seq<string>) {
    forall k :: 0 <= k < |segs| ==> '/' !in segs[k]
  }

  /** JavaScript's `s.split('/')`: the text between consecutive slashes, so a path with
      `n` slashes has `n + 1` segments. */
  function Split(s: string): (segs: seq<string>)
    ensures |segs| >= 1
  {
    if s == [] then
      [""]
    else
      var rest := Split(s[1..]);
      if s[0] == '/' then
        [""] + rest
      else
        [[s[0]] + rest[0]] + rest[1..]
  }

  /** `segs.join('/')`. */
  function JoinSegs(segs: seq<string>): string {
    if segs == [] then ""
    else if |segs| == 1 then segs[0]
    else segs[0] + "/" + JoinSegs(segs[1..])
  }

  /** No segment contains the separator. */
  lemma {:induction false} SplitHasNoSlash(s: string)
    ensures NoSlash(Split(s))
    decreases |s|
  {
    if s != [] {
      SplitHasNoSlash(s[1..]);
      var rest := Split(s[1..]);
      if s[0] != '/' {
        assert '/' !in rest[0];
        assert '/' !in [s[0]] + rest[0];
      }
    }
  }

  /** Splitting distributes over a slash. */
  lemma {:induction false} SplitAppend(a: string, b: string)
    ensures Split(a + "/" + b) == Split(a) + Split(b)
    decreases |a|
  {
    if a == [] {
      assert a + "/" + b == "/" + b;
      assert ("/" + b)[1..] == b;
    } else {
      assert (a + "/" + b)[1..] == a[1..] + "/" + b;
      SplitAppend(a[1..], b);
    }
  }

  lemma {:induction false} SplitWithoutSlash(s: string)
    requires '/' !in s
    ensures Split(s) == [s]
    decreases |s|
  {
    if s != [] {
      assert s[0] in s;
      assert forall c :: c in s[1..] ==> c in s;
      SplitWithoutSlash(s[1..]);
      assert s == [s[0]] + s[1..];
    }
  }

  /** Joining the segments of a path gives the path back. */
  lemma {:induction false} JoinSplit(s: string)
    ensures JoinSegs(Split(s)) == s
    decreases |s|
  {
    if s != [] {
      JoinSplit(s[1..]);
      var rest := Split(s[1..]);
      if s[0] == '/' {
        assert s == "" + "/" + s[1..];
      } else if |rest| == 1 {
        assert s == [s[0]] + s[1..];
      } else {
        assert s[1..] == rest[0] + "/" + JoinSegs(rest[1..]);
        assert s == [s[0]] + s[1..];
      }
    }
  }

  /** Splitting a join of slash-free segments gives the segments back. */
  lemma {:induction false} SplitJoin(segs: seq<string>)
    requires |segs| >= 1 && NoSlash(segs)
    ensures Split(JoinSegs(segs)) == segs
    decreases |segs|
  {
    SplitWithoutSlash(segs[0]);
    if |segs| > 1 {
      SplitAppend(segs[0], JoinSegs(segs[1..]));
      SplitJoin(segs[1..]);
    }
  }

  // ---------------------------------------------------------------------------
  // The segment stack machine shared by normalize and resolve
  // ---------------------------------------------------------------------------

  /** A segment that names a directory entry: not empty, not `.` and not `..`. */
  predicate IsName(seg: string) {
    seg != "" && seg != "." && seg != ".."
  }

  /** A fully resolved segment list: names only. */
  predicate IsCanonical(segs: seq<string>) {
    forall k :: 0 <= k < |segs| ==> IsName(segs[k]) && '/' !in segs[k]
  }

  /** A stack built with `..` kept above the root: no empty and no `.` segments. */
  predicate IsRelativeStack(segs: seq<string>) {
    forall k :: 0 <= k < |segs| ==> segs[k] != "" && segs[k] != "."
  }

  /** One segment of Node's `normalizeString`. */
  function Step(stack: seq<string>, seg: string, aboveRoot: bool): seq<string> {
    if seg == "" || seg == "." then
      stack
    else if seg == ".." then
      if |stack| > 0 && stack[|stack| - 1] != ".." then stack[..|stack| - 1]
      else if aboveRoot then stack + [".."]
      else stack
    else
      stack + [seg]
  }

  /** `normalizeString` over a whole segment list, left to right. */
  function Reduce(stack: seq<string>, segs: seq<string>, aboveRoot: bool): seq<string>
    decreases |segs|
  {
    if segs == [] then stack
    else Reduce(Step(stack, segs[0], aboveRoot), segs[1..], aboveRoot)
  }

  /** The segments that can change a stack: everything but empty and `.` segments. */
  function Significant(segs: seq<string>): seq<string>
  {
    if segs == [] then []
    else (if segs[0] == "" || segs[0] == "." then [] else [segs[0]]) + Significant(segs[1..])
  }

  lemma {:induction false} ReduceAppend(stack: seq<string>, xs: seq<string>, ys: seq<string>, aboveRoot: bool)
    ensures Reduce(stack, xs + ys, aboveRoot) == Reduce(Reduce(stack, xs, aboveRoot), ys, aboveRoot)
    decreases |xs|
  {
    if xs != [] {
      assert (xs + ys)[0] == xs[0];
      assert (xs + ys)[1..] == xs[1..] + ys;
      ReduceAppend(Step(stack, xs[0], aboveRoot), xs[1..], ys, aboveRoot);
    } else {
      assert xs + ys == ys;
    }
  }

  /** Only segments that can change a stack survive. */
  lemma {:induction false} SignificantIsRelative(segs: seq<string>)
    ensures IsRelativeStack(Significant(segs))
    ensures NoSlash(segs) ==> NoSlash(Significant(segs))
    decreases |segs|
  {
    if segs != [] {
      SignificantIsRelative(segs[1..]);
    }
  }

  lemma {:induction false} SignificantAppend(xs: seq<string>, ys: seq<string>)
    ensures Significant(xs + ys) == Significant(xs) + Significant(ys)
    decreases |xs|
  {
    if xs != [] {
      assert (xs + ys)[0] == xs[0];
      assert (xs + ys)[1..] == xs[1..] + ys;
      SignificantAppend(xs[1..], ys);
      var head := if xs[0] == "" || xs[0] == "." then [] else [xs[0]];
      assert Significant(xs + ys) == head + Significant(xs[1..] + ys);
      assert Significant(xs) == head + Significant(xs[1..]);
    } else {
      assert xs + ys == ys;
    }
  }

  /** Empty and `.` segments never change the outcome. */
  lemma {:induction false} ReduceSignificant(stack: seq<string>, segs: seq<string>, aboveRoot: bool)
    ensures Reduce(stack, segs, aboveRoot) == Reduce(stack, Significant(segs), aboveRoot)
    decreases |segs|
  {
    if segs != [] {
      ReduceSignificant(Step(stack, segs[0], aboveRoot), segs[1..], aboveRoot);
      if !(segs[0] == "" || segs[0] == ".") {
        var sig := Significant(segs);
        assert sig == [segs[0]] + Significant(segs[1..]);
        assert sig[0] == segs[0] && sig[1..] == Significant(segs[1..]);
      } else {
        assert Significant(segs) == Significant(segs[1..]);
      }
    }
  }

  /** A list of names is pushed as it is. */
  lemma {:induction false} ReduceNames(stack: seq<string>, names: seq<string>, aboveRoot: bool)
    requires IsCanonical(names)
    ensures Reduce(stack, names, aboveRoot) == stack + names
    decreases |names|
  {
    if names != [] {
      ReduceNames(stack + [names[0]], names[1..], aboveRoot);
      assert stack + [names[0]] + names[1..] == stack + names;
    }
  }

  /** Without `..` segments, the stack only grows, by the significant segments. */
  lemma {:induction false} ReduceWithoutParent(stack: seq<string>, segs: seq<string>, aboveRoot: bool)
    requires forall k :: 0 <= k < |segs| ==> segs[k] != ".."
    ensures Reduce(stack, segs, aboveRoot) == stack + Significant(segs)
    decreases |segs|
  {
    if segs != [] {
      ReduceWithoutParent(Step(stack, segs[0], aboveRoot), segs[1..], aboveRoot);
      if segs[0] == "" || segs[0] == "." {
        assert Significant(segs) == Significant(segs[1..]);
      } else {
        assert Step(stack, segs[0], aboveRoot) == stack + [segs[0]];
        assert Significant(segs) == [segs[0]] + Significant(segs[1..]);
        assert stack + [segs[0]] + Significant(segs[1..]) == stack + ([segs[0]] + Significant(segs[1..]));
      }
    }
  }

  /** At the root, reduction keeps names only. */
  lemma {:induction false} ReduceStaysCanonical(stack: seq<string>, segs: seq<string>)
    requires IsCanonical(stack) && NoSlash(segs)
    ensures IsCanonical(Reduce(stack, segs, false))
    decreases |segs|
  {
    if segs != [] {
      ReduceStaysCanonical(Step(stack, segs[0], false), segs[1..]);
    }
  }

  /** Reduction never introduces a slash into a segment. */
  lemma {:induction false} ReduceKeepsNoSlash(stack: seq<string>, segs: seq<string>, aboveRoot: bool)
    requires NoSlash(stack) && NoSlash(segs)
    ensures NoSlash(Reduce(stack, segs, aboveRoot))
    decreases |segs|
  {
    if segs != [] {
      ReduceKeepsNoSlash(Step(stack, segs[0], aboveRoot), segs[1..], aboveRoot);
    }
  }

  /** Above the root, reduction never produces empty or `.` segments. */
  lemma {:induction false} ReduceStaysRelative(stack: seq<string>, segs: seq<string>)
    requires IsRelativeStack(stack)
    ensures IsRelativeStack(Reduce(stack, segs, true))
    decreases |segs|
  {
    if segs != [] {
      ReduceStaysRelative(Step(stack, segs[0], true), segs[1..]);
    }
  }

  /** One step of normalising above the root, followed by reduction at the root, is the
      same as reducing at the root and then taking that one segment there. */
  lemma StepThenRoot(root: seq<string>, acc: seq<string>, seg: string)
    requires IsRelativeStack(acc)
    ensures IsRelativeStack(Step(acc, seg, true))
    ensures Reduce(root, Step(acc, seg, true), false) == Reduce(Reduce(root, acc, false), [seg], false)
  {
    var r := Reduce(root, acc, false);
    assert Reduce(r, [seg], false) == Step(r, seg, false) by {
      assert [seg][1..] == [];
    }
    if seg == "" || seg == "." {
    } else if seg == ".." && |acc| > 0 && acc[|acc| - 1] != ".." {
      var n := |acc| - 1;
      assert acc == acc[..n] + [acc[n]];
      ReduceAppend(root, acc[..n], [acc[n]], false);
    } else {
      ReduceAppend(root, acc, [seg], false);
    }
  }

  /** Normalising a relative path first (keeping leading `..`) and then reducing it at
      the root gives the same stack as reducing the original segments at the root. */
  lemma {:induction false} ReduceRelativeThenRoot(root: seq<string>, acc: seq<string>, segs: seq<string>)
    requires IsRelativeStack(acc)
    ensures Reduce(root, Reduce(acc, segs, true), false) == Reduce(Reduce(root, acc, false), segs, false)
    decreases |segs|
  {
    if segs != [] {
      var acc' := Step(acc, segs[0], true);
      StepThenRoot(root, acc, segs[0]);
      ReduceRelativeThenRoot(root, acc', segs[1..]);
      assert segs == [segs[0]] + segs[1..];
      ReduceAppend(Reduce(root, acc, false), [segs[0]], segs[1..], false);
    }
  }

  // ---------------------------------------------------------------------------
  // dirname, basename, extname
  // ---------------------------------------------------------------------------

  /** Index of the last `c` in `s`, or -1 when `c` does not occur. */
  function LastIndexOf(s: string, c: char): (r: int)
    ensures -1 <= r < |s|
    ensures r >= 0 ==> s[r] == c
    ensures forall k :: r < k < |s| ==> s[k] != c
  {
    if s == [] then -1
    else if s[|s| - 1] == c then |s| - 1
    else LastIndexOf(s[..|s| - 1], c)
  }

  /** `s` without its trailing slashes. */
  function TrimTrailingSlashes(s: string): (t: string)
    ensures |t| <= |s| && t == s[..|t|]
    ensures forall k :: |t| <= k < |s| ==> s[k] == '/'
    ensures t == [] || t[|t| - 1] != '/'
  {
    if s != [] && s[|s| - 1] == '/' then TrimTrailingSlashes(s[..|s| - 1]) else s
  }

  /** Node's `path.basename(s)`: the last slash-free run of `s`, trailing slashes ignored. */
  function Basename(s: string): (b: string)
    ensures '/' !in b
  {
    var t := TrimTrailingSlashes(s);
    var j := LastIndexOf(t, '/');
    t[j + 1..]
  }

  /** The base name is empty exactly when the path is nothing but slashes. */
  lemma BasenameEmptyIffSlashes(s: string)
    ensures Basename(s) == [] <==> forall k :: 0 <= k < |s| ==> s[k] == '/'
  {
    var t := TrimTrailingSlashes(s);
    if t != [] {
      assert t[|t| - 1] == s[|t| - 1];
    }
  }

  /** Node's `path.dirname(s)`: everything before the slash that precedes the last name;
      `.` when there is none, `/` for a name right under the root, and Node's literal `//`
      when the path starts with two slashes and then a single name. */
  function Dirname(s: string): (d: string)
    ensures d != []
  {
    if s == [] then
      "."
    else
      var t := TrimTrailingSlashes(s);
      var j := LastIndexOf(t, '/');
      if j >= 1 then
        if s[0] == '/' && j == 1 then "//" else s[..j]
      else if s[0] == '/' then
        "/"
      else
        "."
  }

  /** Node's `path.extname(s)`: from the last `.` of the base name to its end, or empty when
      the base name has no `.`, its only `.` is its first character, or it is `..`. */
  function Extname(s: string): (e: string)
    ensures var b := Basename(s);
      && |e| <= |b| && e == b[|b| - |e|..]
      && (e != [] ==> e[0] == '.' && '.' !in e[1..] && |e| < |b|)
      && (e != [] <==> (exists k :: 1 <= k < |b| && b[k] == '.') && b != "..")
  {
    var b := Basename(s);
    var d := LastIndexOf(b, '.');
    if d <= 0 || b == ".." then
      ""
    else
      assert forall k :: 1 <= k < |b[d..]| ==> b[d..][k] == b[d + k];
      b[d..]
  }

  /** Removing trailing slashes changes no significant segment. */
  lemma {:induction false} TrimKeepsSegments(s: string)
    ensures Significant(Split(TrimTrailingSlashes(s))) == Significant(Split(s))
    decreases |s|
  {
    if s != [] && s[|s| - 1] == '/' {
      var s' := s[..|s| - 1];
      TrimKeepsSegments(s');
      assert s == s' + "/" + "";
      SplitAppend(s', "");
      SignificantAppend(Split(s'), [""]);
    }
  }

  /** Significant segments of a path made of slashes only: none. */
  lemma SlashesHaveNoSegments(s: string)
    requires forall k :: 0 <= k < |s| ==> s[k] == '/'
    ensures Significant(Split(s)) == []
    decreases |s|
  {
    if s != [] {
      SlashesHaveNoSegments(s[1..]);
      assert Split(s) == [""] + Split(s[1..]);
    }
  }

  /** The general case of `dirname`: a slash at `j >= 1` precedes the last name. */
  lemma SplitAtLastSlash(t: string, j: int)
    requires 0 <= j < |t| && t[j] == '/'
    ensures Significant(Split(t)) == Significant(Split(t[..j])) + Significant(Split(t[j + 1..]))
  {
    assert t == t[..j] + "/" + t[j + 1..];
    SplitAppend(t[..j], t[j + 1..]);
    SignificantAppend(Split(t[..j]), Split(t[j + 1..]));
  }

  /** The segments of `dirname`'s fixed answers `.`, `/` and `//`: none significant. */
  lemma FixedDirnamesHaveNoSegments()
    ensures Significant(Split(".")) == []
    ensures Significant(Split("/")) == []
    ensures Significant(Split("//")) == []
  {
    SplitWithoutSlash(".");
    SlashesHaveNoSegments("/");
    SlashesHaveNoSegments("//");
  }

  /** Splitting at a slash, when the part before it is either kept as it is or has no
      significant segment at all. */
  lemma SegmentsAroundSlash(t: string, j: int, d: string, b: string)
    requires 0 <= j < |t| && t[j] == '/' && b == t[j + 1..]
    requires d == t[..j] || (Significant(Split(d)) == [] && Significant(Split(t[..j])) == [])
    ensures Significant(Split(d)) + Significant(Split(b)) == Significant(Split(t))
  {
    SplitAtLastSlash(t, j);
  }

  /** `dirname` in the general case: the path up to its last slash. */
  lemma DirnameIsPrefix(s: string, t: string, j: int)
    requires s != [] && t == TrimTrailingSlashes(s) && j == LastIndexOf(t, '/')
    requires j >= 1 && !(s[0] == '/' && j == 1)
    ensures Significant(Split(Dirname(s))) + Significant(Split(Basename(s))) == Significant(Split(t))
  {
    assert s[..j] == t[..j];
    assert Dirname(s) == t[..j];
    assert Basename(s) == t[j + 1..];
    SplitAtLastSlash(t, j);
  }

  /** `dirname` in the fixed cases: `.`, `/` or `//`, before a slash-only prefix. */
  lemma DirnameIsFixed(s: string, t: string, j: int)
    requires s != [] && t == TrimTrailingSlashes(s) && j == LastIndexOf(t, '/') && j >= 0
    requires !(j >= 1 && !(s[0] == '/' && j == 1))
    ensures Significant(Split(Dirname(s))) + Significant(Split(Basename(s))) == Significant(Split(t))
  {
    FixedDirnamesHaveNoSegments();
    if j == 1 {
      assert t[0] == s[0];
    }
    SlashesHaveNoSegments(t[..j]);
    SegmentsAroundSlash(t, j, Dirname(s), t[j + 1..]);
  }

  lemma DirnameBeforeLastSlash(s: string, t: string, j: int)
    requires s != [] && t == TrimTrailingSlashes(s) && j == LastIndexOf(t, '/') && j >= 0
    ensures Significant(Split(Dirname(s))) + Significant(Split(Basename(s))) == Significant(Split(t))
  {
    if j >= 1 && !(s[0] == '/' && j == 1) {
      DirnameIsPrefix(s, t, j);
    } else {
      DirnameIsFixed(s, t, j);
    }
  }

  /** `dirname` of a path without a slash after its first character: `.` or `/`. */
  lemma DirnameWithoutInnerSlash(s: string, t: string)
    requires s != [] && t == TrimTrailingSlashes(s) && LastIndexOf(t, '/') < 0
    ensures Significant(Split(Dirname(s))) + Significant(Split(Basename(s))) == Significant(Split(t))
  {
    FixedDirnamesHaveNoSegments();
    SplitWithoutSlash(t);
    if t == [] {
      SlashesHaveNoSegments(s);
      SplitWithoutSlash("");
      assert Significant([""]) == [];
    } else {
      assert t[0] == s[0];
      assert Basename(s) == t;
    }
  }

  lemma DirnameBasenameOfEmpty(s: string)
    requires s == []
    ensures Significant(Split(Dirname(s)) + Split(Basename(s))) == Significant(Split(s))
  {
    assert Dirname(s) == "." && Basename(s) == "";
    SplitWithoutSlash(".");
    SplitWithoutSlash("");
    SignificantAppend(Split("."), Split(""));
  }

  lemma DirnameBasenameOfNonEmpty(s: string)
    requires s != []
    ensures Significant(Split(Dirname(s)) + Split(Basename(s))) == Significant(Split(s))
  {
    var t := TrimTrailingSlashes(s);
    TrimKeepsSegments(s);
    if LastIndexOf(t, '/') >= 0 {
      DirnameBeforeLastSlash(s, t, LastIndexOf(t, '/'));
    } else {
      DirnameWithoutInnerSlash(s, t);
    }
    SignificantAppend(Split(Dirname(s)), Split(Basename(s)));
  }

  /** `dirname` and `basename` together keep every significant segment of the path, in
      order: joining them back names the same place. */
  lemma DirnameBasenameSegments(s: string)
    ensures Significant(Split(Dirname(s)) + Split(Basename(s))) == Significant(Split(s))
  {
    if s == [] {
      DirnameBasenameOfEmpty(s);
    } else {
      DirnameBasenameOfNonEmpty(s);
    }
  }

  // ---------------------------------------------------------------------------
  // normalize, join, resolve
  // ---------------------------------------------------------------------------

  /** Node's `path.normalize(p)`. */
  function Normalize(p: string): (r: string)
    ensures r != []
    ensures IsAbsolute(p) ==> IsAbsolute(r)
  {
    if p == [] then
      "."
    else
      var absolute := p[0] == '/';
      var trailing := p[|p| - 1] == '/';
      var body := JoinSegs(Reduce([], Split(p), !absolute));
      if body == [] then
        if absolute then "/" else if trailing then "./" else "."
      else
        var withSlash := if trailing then body + "/" else body;
        if absolute then "/" + withSlash else withSlash
  }

  /** Node's two-argument `path.join(a, b)`: empty arguments are dropped, the rest joined
      with `/` and normalised; `.` when nothing is left. */
  function Join(a: string, b: string): (r: string)
    ensures r != []
    ensures IsAbsolute(a) ==> IsAbsolute(r)
  {
    if a == [] && b == [] then "."
    else if a == [] then Normalize(b)
    else if b == [] then Normalize(a)
    else Normalize(a + "/" + b)
  }

  /** Node's one-argument `path.resolve(s)` run in the working directory `cwd`: a relative
      `s` is put under `cwd`, an empty one stands for `cwd`, and the result is reduced at
      the root. */
  function Resolve(cwd: string, s: string): (r: string)
    requires IsAbsolute(cwd)
    ensures IsAbsolute(r)
  {
    var full := if IsAbsolute(s) then s else if s == [] then cwd else cwd + "/" + s;
    "/" + JoinSegs(Reduce([], Split(full), false))
  }

  /** The names `resolve` starts from: none for an absolute path, the working directory's
      otherwise. */
  function BaseStack(cwd: string, s: string): seq<string> {
    if IsAbsolute(s) then [] else Reduce([], Split(cwd), false)
  }

  /** The names of the directory `Resolve(cwd, s)` denotes. */
  function Resolved(cwd: string, s: string): seq<string> {
    Reduce(BaseStack(cwd, s), Split(s), false)
  }

  /** `resolve` renders the names of the place it denotes: a canonical absolute path. */
  lemma ResolveRendersResolved(cwd: string, s: string)
    requires IsAbsolute(cwd)
    ensures Resolve(cwd, s) == "/" + JoinSegs(Resolved(cwd, s))
    ensures IsCanonical(Resolved(cwd, s))
  {
    SplitHasNoSlash(cwd);
    SplitHasNoSlash(s);
    ReduceStaysCanonical([], Split(cwd));
    ReduceStaysCanonical(BaseStack(cwd, s), Split(s));
    if !IsAbsolute(s) {
      if s == [] {
        var root := Reduce([], Split(cwd), false);
        assert Split(s) == [""];
        assert Reduce(root, [""], false) == Reduce(root, [], false) == root;
      } else {
        SplitAppend(cwd, s);
        ReduceAppend([], Split(cwd), Split(s), false);
      }
    }
  }

  /** A canonical absolute path resolves to itself, anywhere. */
  lemma ResolvedOfCanonical(cwd: string, names: seq<string>)
    requires IsCanonical(names)
    ensures Resolved(cwd, "/" + JoinSegs(names)) == names
  {
    var p := "/" + JoinSegs(names);
    assert p == "" + "/" + JoinSegs(names);
    SplitAppend("", JoinSegs(names));
    assert Split("") == [""];
    if names == [] {
      assert Split(p) == ["", ""];
      assert Reduce([], [""], false) == Reduce([], [], false) == [];
      assert Reduce([], ["", ""], false) == Reduce([], [""], false);
    } else {
      SplitJoin(names);
      ReduceNames([], names, false);
    }
  }

  lemma JoinSegsStartsWithFirst(segs: seq<string>)
    requires |segs| >= 1 && segs[0] != []
    ensures JoinSegs(segs) != [] && JoinSegs(segs)[0] == segs[0][0]
  {
  }

  /** What remains of a normalised absolute path: its reduced names. */
  lemma NormalizeAbsolute(cwd: string, p: string)
    requires IsAbsolute(p)
    ensures Resolved(cwd, Normalize(p)) == Resolved(cwd, p)
  {
    var names := Reduce([], Split(p), false);
    SplitHasNoSlash(p);
    ReduceStaysCanonical([], Split(p));
    ResolvedOfCanonical(cwd, names);
    var q := "/" + JoinSegs(names);
    if names != [] && p[|p| - 1] == '/' {
      assert Normalize(p) == q + "/" + "";
      SplitAppend(q, "");
      ReduceAppend([], Split(q), Split(""), false);
      assert Split("") == [""];
    } else if names == [] {
      assert Normalize(p) == "/" == "/" + JoinSegs([]);
      ResolvedOfCanonical(cwd, []);
    }
  }

  /** A relative path that normalises to nothing: `.` or `./`, no significant segment. */
  lemma NormalizedToCurrent(p: string)
    requires p != [] && !IsAbsolute(p) && Reduce([], Split(p), true) == []
    ensures !IsAbsolute(Normalize(p)) && Significant(Split(Normalize(p))) == []
  {
    assert JoinSegs([]) == [];
    SplitWithoutSlash(".");
    assert "./" == "." + "/" + "";
    SplitAppend(".", "");
    assert Split("") == [""];
  }

  /** A relative path that keeps some segments: they are rendered, with a trailing slash
      when the path had one. */
  lemma NormalizedToSegments(p: string, acc: seq<string>)
    requires p != [] && !IsAbsolute(p) && acc == Reduce([], Split(p), true) && acc != []
    requires IsRelativeStack(acc) && NoSlash(acc)
    ensures !IsAbsolute(Normalize(p)) && Significant(Split(Normalize(p))) == acc
  {
    var body := JoinSegs(acc);
    SignificantOfRelative(acc);
    SplitJoin(acc);
    JoinSegsStartsWithFirst(acc);
    if p[|p| - 1] == '/' {
      assert Normalize(p) == body + "/" + "";
      SplitAppend(body, "");
      assert Split("") == [""];
      SignificantAppend(acc, [""]);
    } else {
      assert Normalize(p) == body;
    }
  }

  /** What remains of a normalised relative path: its stack with leading `..` kept. */
  lemma NormalizedRelativeSegments(p: string)
    requires p != [] && !IsAbsolute(p)
    ensures var acc := Reduce([], Split(p), true);
      && IsRelativeStack(acc)
      && !IsAbsolute(Normalize(p))
      && Significant(Split(Normalize(p))) == acc
  {
    var acc := Reduce([], Split(p), true);
    SplitHasNoSlash(p);
    ReduceStaysRelative([], Split(p));
    ReduceKeepsNoSlash([], Split(p), true);
    if acc == [] {
      NormalizedToCurrent(p);
    } else {
      NormalizedToSegments(p, acc);
    }
  }

  /** A stack without empty or `.` segments is its own significant part. */
  lemma {:induction false} SignificantOfRelative(segs: seq<string>)
    requires IsRelativeStack(segs)
    ensures Significant(segs) == segs
    decreases |segs|
  {
    if segs != [] {
      SignificantOfRelative(segs[1..]);
      assert segs == [segs[0]] + segs[1..];
    }
  }

  /** `normalize` never moves a path: resolving it first or not gives the same place. */
  lemma NormalizeKeepsPlace(cwd: string, p: string)
    requires IsAbsolute(cwd) && p != []
    ensures Resolved(cwd, Normalize(p)) == Resolved(cwd, p)
  {
    if IsAbsolute(p) {
      NormalizeAbsolute(cwd, p);
    } else {
      var root := Reduce([], Split(cwd), false);
      NormalizedRelativeSegments(p);
      var acc := Reduce([], Split(p), true);
      ReduceSignificant(root, Split(Normalize(p)), false);
      ReduceRelativeThenRoot(root, [], Split(p));
    }
  }

  /** `join` followed by `resolve` denotes the same place as resolving the two paths
      written one after the other with a slash between them. */
  lemma JoinKeepsPlace(cwd: string, a: string, b: string)
    requires IsAbsolute(cwd) && a != []
    ensures Resolved(cwd, Join(a, b)) == Resolved(cwd, a + "/" + b)
  {
    if b == [] {
      NormalizeKeepsPlace(cwd, a);
      SplitAppend(a, b);
      assert Split(b) == [""];
      ReduceAppend(BaseStack(cwd, a), Split(a), [""], false);
    } else {
      NormalizeKeepsPlace(cwd, a + "/" + b);
    }
  }

  /** Resolving `a/b` is resolving `a`, then walking `b` from there. */
  lemma ResolvedAppend(cwd: string, a: string, b: string)
    requires a != []
    ensures Resolved(cwd, a + "/" + b) == Reduce(Resolved(cwd, a), Split(b), false)
  {
    SplitAppend(a, b);
    ReduceAppend(BaseStack(cwd, a), Split(a), Split(b), false);
  }

  /** Joining one slash-free segment to a canonical absolute path and resolving the result
      takes one normalisation step at the root. */
  lemma ResolvedChildOfCanonical(cwd: string, names: seq<string>, seg: string)
    requires IsAbsolute(cwd) && IsCanonical(names) && '/' !in seg
    ensures Resolved(cwd, Join("/" + JoinSegs(names), seg)) == Step(names, seg, false)
  {
    var a := "/" + JoinSegs(names);
    JoinKeepsPlace(cwd, a, seg);
    ResolvedAppend(cwd, a, seg);
    ResolvedOfCanonical(cwd, names);
    SplitWithoutSlash(seg);
    assert [seg][1..] == [];
  }

  /** A name appended to a path is its last significant segment. */
  lemma NameIsLastSignificant(segs: seq<string>, name: string)
    requires IsName(name) && '/' !in name
    ensures var sig := Significant(segs + Split(name));
      |sig| > 0 && sig[|sig| - 1] == name
  {
    SignificantAppend(segs, Split(name));
    SplitWithoutSlash(name);
    assert Significant([name]) == [name] + Significant([]);
  }

  /** An ordinary base name is the last significant segment of its path. */
  lemma LastSegmentIsBasename(s: string)
    requires IsName(Basename(s))
    ensures var sig := Significant(Split(s));
      |sig| > 0 && sig[|sig| - 1] == Basename(s)
  {
    DirnameBasenameSegments(s);
    NameIsLastSignificant(Split(Dirname(s)), Basename(s));
  }

  /** The last non-empty segment of a list, or empty when there is none. */
  function LastNonEmpty(segs: seq<string>): string
    decreases |segs|
  {
    if segs == [] then ""
    else if segs[|segs| - 1] != "" then segs[|segs| - 1]
    else LastNonEmpty(segs[..|segs| - 1])
  }

  /** An empty segment at the end changes nothing. */
  lemma LastNonEmptyDropsEmpty(segs: seq<string>)
    ensures LastNonEmpty(segs + [""]) == LastNonEmpty(segs)
  {
    assert (segs + [""])[..|segs|] == segs;
  }

  /** A non-empty segment at the end is the last non-empty one. */
  lemma LastNonEmptyOfName(segs: seq<string>, name: string)
    requires name != []
    ensures LastNonEmpty(segs + [name]) == name
  {
  }

  /** The segments of a path that ends in a slash: those before it, then an empty one. */
  lemma SplitTrailingSlash(s: string)
    requires s != [] && s[|s| - 1] == '/'
    ensures Split(s) == Split(s[..|s| - 1]) + [""]
  {
    assert s == s[..|s| - 1] + "/" + "";
    SplitAppend(s[..|s| - 1], "");
    assert Split("") == [""];
  }

  /** The segments of a path whose last slash is at `j`: those before it, then the tail. */
  lemma SplitLastSlash(s: string, j: int)
    requires 0 <= j < |s| && s[j] == '/'
    requires forall k :: j < k < |s| ==> s[k] != '/'
    ensures Split(s) == Split(s[..j]) + [s[j + 1..]]
  {
    var name := s[j + 1..];
    forall i | 0 <= i < |name|
      ensures name[i] != '/'
    {
      assert name[i] == s[j + 1 + i];
    }
    SplitWithoutSlash(name);
    assert s == s[..j] + "/" + name;
    SplitAppend(s[..j], name);
  }

  /** `basename` of a path that does not end in a slash but contains one. */
  lemma BasenameAfterLastSlash(s: string, j: int)
    requires s != [] && s[|s| - 1] != '/' && j == LastIndexOf(s, '/') && j >= 0
    ensures Basename(s) == LastNonEmpty(Split(s))
  {
    assert TrimTrailingSlashes(s) == s;
    assert Basename(s) == s[j + 1..];
    SplitLastSlash(s, j);
    assert s[j + 1..][|s| - j - 2] == s[|s| - 1];
    LastNonEmptyOfName(Split(s[..j]), s[j + 1..]);
  }

  /** `basename` of a path that ends in a slash is that of the path without it. */
  lemma BasenameBeforeTrailingSlash(s: string)
    requires s != [] && s[|s| - 1] == '/'
    ensures Basename(s) == Basename(s[..|s| - 1])
    ensures LastNonEmpty(Split(s)) == LastNonEmpty(Split(s[..|s| - 1]))
  {
    assert TrimTrailingSlashes(s) == TrimTrailingSlashes(s[..|s| - 1]);
    SplitTrailingSlash(s);
    LastNonEmptyDropsEmpty(Split(s[..|s| - 1]));
  }

  /** `basename` is the last non-empty segment of the path, or empty when it has none. */
  lemma {:induction false} BasenameIsLastNonEmptySegment(s: string)
    ensures Basename(s) == LastNonEmpty(Split(s))
    decreases |s|
  {
    if s != [] && s[|s| - 1] == '/' {
      BasenameIsLastNonEmptySegment(s[..|s| - 1]);
      BasenameBeforeTrailingSlash(s);
    } else if LastIndexOf(s, '/') >= 0 {
      BasenameAfterLastSlash(s, LastIndexOf(s, '/'));
    } else {
      SplitWithoutSlash(s);
    }
  }

  /** The last occurrence of `c` is the one with no `c` after it. */
  lemma LastIndexOfIs(s: string, c: char, r: int)
    requires 0 <= r < |s| && s[r] == c
    requires forall k :: r < k < |s| ==> s[k] != c
    ensures LastIndexOf(s, c) == r
  {
  }

  /** A character missing from a tail occurs at no index of it. */
  lemma AbsentFromTail(s: string, i: int, c: char)
    requires 0 <= i < |s| && c !in s[i + 1..]
    ensures forall k :: i < k < |s| ==> s[k] != c
  {
    forall k | i < k < |s|
      ensures s[k] != c
    {
      assert s[k] == s[i + 1..][k - i - 1];
    }
  }

  /** Where the last slash of a path is when a slash-free tail follows it. */
  lemma LastSlashBeforeName(d: string, n: string)
    requires n != [] && '/' !in n
    ensures LastIndexOf(d + "/" + n, '/') == |d|
    ensures TrimTrailingSlashes(d + "/" + n) == d + "/" + n
  {
    var s := d + "/" + n;
    assert s[|d|] == '/';
    assert s[|d| + 1..] == n;
    AbsentFromTail(s, |d|, '/');
    LastIndexOfIs(s, '/', |d|);
    assert s[|s| - 1] == n[|n| - 1];
  }

  /** A name after a slash: `basename` is the name, and `dirname` the part before the
      slash, unless that part is empty or the root. */
  lemma DirnameBasenameOfChild(d: string, n: string)
    requires n != [] && '/' !in n && d != [] && d != "/"
    ensures Dirname(d + "/" + n) == d
    ensures Basename(d + "/" + n) == n
  {
    var s := d + "/" + n;
    LastSlashBeforeName(d, n);
    assert s[..|d|] == d;
    assert s[|d| + 1..] == n;
    if |d| == 1 {
      assert d == [d[0]];
    }
  }

  /** A single name: `basename` is the name itself and `dirname` is `.`. */
  lemma DirnameBasenameOfName(n: string)
    requires n != [] && '/' !in n
    ensures Dirname(n) == "."
    ensures Basename(n) == n
  {
    assert n[0] in n;
    assert n[|n| - 1] in n;
  }
}

=== FILE: unpacker.dfy ===
/**
 The per-entry decision of the unpacker and the loop over one source map's entries. Each
 entry is a module path and its `sourcesContent` string; the outcome is either a skip, which
 the program reports by printing the path, or a write of some content to a file under the
 output root (after creating the file's folder).
 */
module Unpacker {
  import opened Optional
  import opened ModulePattern
  import opened PosixPath
  import opened ContentDecoder

  /** What the program learns from its surroundings: the working directory that
      `path.resolve` falls back on, and the output root (`options.output`, `.` by default). */
  datatype Env = Env(cwd: string, output: string)

  predicate ValidEnv(env: Env) {
    IsAbsolute(env.cwd)
  }

  /** The output root used when `-o` is not given, or given empty. */
  function OutputRoot(option: string): (root: string)
    ensures root != []
    ensures option != [] ==> root == option
    ensures option == [] ==> root == "."
  {
    if option == [] then "." else option
  }

  /** Where a relative module path is written: the folder that is created, the file, and
      the file's extension, which selects how the content is decoded. */
  datatype Target = Target(folder: string, outputPath: string, extension: string)

  /** The path computation for the captured relative path `rel`. */
  function ResolveTarget(env: Env, rel: string): (t: Target)
    requires ValidEnv(env)
    ensures IsAbsolute(t.folder) && IsAbsolute(t.outputPath)
  {
    var folder := Resolve(env.cwd, Join(env.output, Dirname(rel)));
    var filename := Basename(rel);
    Target(folder, Resolve(env.cwd, Join(folder, filename)), Extname(filename))
  }

  /** The outcome of one entry: a skip naming the module path, or a write. */
  datatype Outcome =
    | Skip(modulePath: string)
    | Write(folder: string, path: string, payload: Payload)

  /** The body of the `paths.forEach` callback for module path `p` and its content. */
  function ProcessEntry(env: Env, ops: Foreign, p: string, source: Option<string>): (o: Outcome)
    requires ValidEnv(env)
    ensures o.Skip? ==> o.modulePath == p
    ensures o.Write? ==> IsAbsolute(o.folder) && IsAbsolute(o.path)
  {
    match MatchModulePath(p)
    case None => Skip(p)
    case Some(m) =>
      if m.capture.hash.Some? then
        Skip(p)
      else
        var target := ResolveTarget(env, m.capture.relative);
        var decoded := DecodeContent(ops, target.extension, target.outputPath, source);
        Write(target.folder, decoded.path, decoded.payload)
  }

  /** `sources[idx]`: `undefined` past the end of `sourcesContent`. */
  function SourceAt(sources: seq<Option<string>>, idx: nat): (s: Option<string>)
    ensures idx < |sources| ==> s == sources[idx]
    ensures |sources| <= idx ==> s == None
  {
    if idx < |sources| then sources[idx] else None
  }

  /** The `forEach` over the entries of one map, from index `idx` on. */
  function UnpackFrom(env: Env, ops: Foreign, paths: seq<string>, sources: seq<Option<string>>, idx: nat): (r: seq<Outcome>)
    requires ValidEnv(env) && idx <= |paths|
    ensures |r| == |paths| - idx
    ensures forall k :: 0 <= k < |r| ==> r[k] == ProcessEntry(env, ops, paths[idx + k], SourceAt(sources, idx + k))
    decreases |paths| - idx
  {
    if idx == |paths| then
      []
    else
      var rest := UnpackFrom(env, ops, paths, sources, idx + 1);
      var r := [ProcessEntry(env, ops, paths[idx], SourceAt(sources, idx))] + rest;
      assert forall k :: 1 <= k < |r| ==> r[k] == rest[k - 1];
      r
  }

  /** All entries of one map, in order. */
  function Unpack(env: Env, ops: Foreign, paths: seq<string>, sources: seq<Option<string>>): (r: seq<Outcome>)
    requires ValidEnv(env)
    ensures |r| == |paths|
    ensures forall k :: 0 <= k < |paths| ==> r[k] == ProcessEntry(env, ops, paths[k], SourceAt(sources, k))
  {
    UnpackFrom(env, ops, paths, sources, 0)
  }

  // ---------------------------------------------------------------------------
  // Which entries are skipped
  // ---------------------------------------------------------------------------

  /** A module path with no suffix of the form `webpack:///` + path characters (+ hash) is
      skipped, and the skip names it. */
  lemma UnmatchedPathIsSkipped(env: Env, ops: Foreign, p: string, source: Option<string>)
    requires ValidEnv(env)
    requires forall i: nat, c :: !MatchesAt(p, i, c)
    ensures ProcessEntry(env, ops, p, source) == Skip(p)
  {
  }

  /** A module path that matches with the `?xxxx` hash group is skipped, never written. */
  lemma HashedPathIsSkipped(env: Env, ops: Foreign, p: string, source: Option<string>, i: nat, c: Capture)
    requires ValidEnv(env)
    requires MatchesAt(p, i, c) && c.hash.Some?
    ensures ProcessEntry(env, ops, p, source) == Skip(p)
  {
    var m := MatchModulePath(p).value;
    MatchIsUnique(p, i, c, m.start, m.capture);
  }

  /** An entry is written exactly when its module path matches without the hash group;
      every other entry is skipped under its own path. */
  lemma SkippedIffNoPlainMatch(env: Env, ops: Foreign, p: string, source: Option<string>)
    requires ValidEnv(env)
    ensures var o := ProcessEntry(env, ops, p, source);
      && (o.Write? <==> exists i: nat, c :: MatchesAt(p, i, c) && c.hash.None?)
      && (o.Skip? ==> o.modulePath == p)
  {
    var o := ProcessEntry(env, ops, p, source);
    if o.Write? {
      var m := MatchModulePath(p).value;
      assert MatchesAt(p, m.start, m.capture) && m.capture.hash.None?;
    } else {
      forall i: nat, c | MatchesAt(p, i, c)
        ensures c.hash.Some?
      {
        var m := MatchModulePath(p).value;
        MatchIsUnique(p, i, c, m.start, m.capture);
      }
    }
  }

  /** A written entry's relative path is non-empty, made of path characters only, and is
      all the module path holds after its last `webpack:///`; what is written, and where,
      is what the extension switch picks for that relative path's target. */
  lemma WrittenEntryShape(env: Env, ops: Foreign, p: string, source: Option<string>)
    requires ValidEnv(env)
    requires ProcessEntry(env, ops, p, source).Write?
    ensures var m := MatchModulePath(p).value;
      var rel := m.capture.relative;
      var target := ResolveTarget(env, rel);
      var o := ProcessEntry(env, ops, p, source);
      var d := DecodeContent(ops, target.extension, target.outputPath, source);
      && m.capture.hash.None?
      && |rel| >= 1 && AllPathChars(rel)
      && p == p[..m.start] + Scheme + rel
      && (forall j: nat :: m.start < j ==> !SchemeAt(p, j))
      && o.folder == target.folder
      && (o.path == target.outputPath || o.path == target.outputPath + FallbackSuffix)
      && o.path == d.path && o.payload == d.payload
  {
    MatchFollowsLastScheme(p);
  }

  // ---------------------------------------------------------------------------
  // Where written entries go
  // ---------------------------------------------------------------------------

  /** Splitting the relative path into `dirname` and `basename`, resolving the folder and
      then the file inside it, lands exactly where resolving `output/rel` lands. */
  lemma TargetIsResolvedRelativePath(env: Env, rel: string)
    requires ValidEnv(env) && env.output != []
    ensures ResolveTarget(env, rel).outputPath == Resolve(env.cwd, env.output + "/" + rel)
    ensures ResolveTarget(env, rel).folder == Resolve(env.cwd, env.output + "/" + Dirname(rel))
  {
    var cwd, out := env.cwd, env.output;
    var d, b := Dirname(rel), Basename(rel);
    var t := ResolveTarget(env, rel);
    // The folder.
    JoinKeepsPlace(cwd, out, d);
    ResolveRendersResolved(cwd, Join(out, d));
    ResolveRendersResolved(cwd, out + "/" + d);
    var folderNames := Resolved(cwd, out + "/" + d);
    assert t.folder == "/" + JoinSegs(folderNames);
    // The file inside it.
    JoinKeepsPlace(cwd, t.folder, b);
    ResolveRendersResolved(cwd, Join(t.folder, b));
    ResolvedAppend(cwd, t.folder, b);
    ResolvedOfCanonical(cwd, folderNames);
    ResolvedAppend(cwd, out, d);
    ReduceAppend(Resolved(cwd, out), Split(d), Split(b), false);
    // `dirname` and `basename` keep the significant segments of `rel`.
    DirnameBasenameSegments(rel);
    ReduceSignificant(Resolved(cwd, out), Split(d) + Split(b), false);
    ReduceSignificant(Resolved(cwd, out), Split(rel), false);
    ResolvedAppend(cwd, out, rel);
    ResolveRendersResolved(cwd, out + "/" + rel);
  }

  /** With the output root taken from the `-o` value (or its `.` default), the file is
      `resolve(root/rel)` and the folder `resolve(root/dirname(rel))`. */
  lemma CommandLineTarget(cwd: string, option: string, rel: string)
    requires IsAbsolute(cwd)
    ensures var env := Env(cwd, OutputRoot(option));
      && ResolveTarget(env, rel).outputPath == Resolve(cwd, OutputRoot(option) + "/" + rel)
      && ResolveTarget(env, rel).folder == Resolve(cwd, OutputRoot(option) + "/" + Dirname(rel))
  {
    TargetIsResolvedRelativePath(Env(cwd, OutputRoot(option)), rel);
  }

  /** Without a `..` segment, the relative path is only ever appended to the output root:
      the file's names are the output root's names followed by those of the relative path. */
  lemma TargetStaysUnderOutput(env: Env, rel: string)
    requires ValidEnv(env) && env.output != []
    requires forall k :: 0 <= k < |Split(rel)| ==> Split(rel)[k] != ".."
    ensures Resolved(env.cwd, ResolveTarget(env, rel).outputPath)
         == Resolved(env.cwd, env.output) + Significant(Split(rel))
  {
    var cwd, out := env.cwd, env.output;
    TargetIsResolvedRelativePath(env, rel);
    ResolveRendersResolved(cwd, out + "/" + rel);
    ResolvedOfCanonical(cwd, Resolved(cwd, out + "/" + rel));
    ResolvedAppend(cwd, out, rel);
    ReduceWithoutParent(Resolved(cwd, out), Split(rel), false);
  }

  lemma SplitParentName(name: string)
    requires '/' !in name
    ensures Split("../" + name) == ["..", name]
  {
    assert "../" + name == ".." + "/" + name;
    SplitAppend("..", name);
    SplitWithoutSlash("..");
    SplitWithoutSlash(name);
  }

  lemma ResolvedOfNameAndEmpty(cwd: string, out: string)
    requires IsAbsolute(cwd) && IsName(out) && '/' !in out
    ensures Resolved(cwd, out) == Resolved(cwd, "") + [out]
    ensures Resolved(cwd, "") == Reduce([], Split(cwd), false)
  {
    var root := Reduce([], Split(cwd), false);
    SplitWithoutSlash(out);
    assert Resolved(cwd, out) == Reduce(root, [out], false) == root + [out];
    assert Split("") == [""];
    assert Resolved(cwd, "") == Reduce(root, [""], false) == root;
  }

  lemma ClimbOneLevel(root: seq<string>, out: string, name: string)
    requires IsName(out) && IsName(name)
    ensures Reduce(root + [out], ["..", name], false) == root + [name]
  {
    var segs := ["..", name];
    assert (root + [out])[..|root|] == root;
    assert Step(root + [out], "..", false) == root;
    assert segs[1..] == [name];
    assert Reduce(root, [name], false) == Reduce(root + [name], [], false);
  }

  /** The relative path may climb out of the output root: nothing in the path computation
      stops a `..` segment. With an output root `out` under the working directory, the
      relative path `../name` is written beside `out`, not inside it. */
  lemma TargetMayLeaveOutput(env: Env, name: string)
    requires ValidEnv(env)
    requires IsName(env.output) && '/' !in env.output
    requires IsName(name) && '/' !in name
    ensures Resolved(env.cwd, env.output) == Resolved(env.cwd, "") + [env.output]
    ensures Resolved(env.cwd, ResolveTarget(env, "../" + name).outputPath) == Resolved(env.cwd, "") + [name]
  {
    var cwd, out := env.cwd, env.output;
    var rel := "../" + name;
    var root := Resolved(cwd, "");
    ResolvedOfNameAndEmpty(cwd, out);
    TargetIsResolvedRelativePath(env, rel);
    ResolveRendersResolved(cwd, out + "/" + rel);
    ResolvedOfCanonical(cwd, Resolved(cwd, out + "/" + rel));
    ResolvedAppend(cwd, out, rel);
    SplitParentName(name);
    ClimbOneLevel(root, out, name);
  }

  /** Without `..` segments and with an ordinary base name, the last name of the file
      written is the base name of the relative path. */
  lemma WrittenFileEndsWithBasename(env: Env, rel: string)
    requires ValidEnv(env) && env.output != []
    requires forall k :: 0 <= k < |Split(rel)| ==> Split(rel)[k] != ".."
    requires IsName(Basename(rel))
    ensures var names := Resolved(env.cwd, ResolveTarget(env, rel).outputPath);
      |names| > 0 && names[|names| - 1] == Basename(rel)
  {
    TargetStaysUnderOutput(env, rel);
    var sig := Significant(Split(rel));
    LastSegmentIsBasename(rel);
    var names := Resolved(env.cwd, env.output) + sig;
    assert names[|names| - 1] == sig[|sig| - 1];
  }

  /** ... and the extension that selected the decoding is that name's extension. */
  lemma WrittenFileIsNamedByBasename(env: Env, rel: string)
    requires ValidEnv(env) && env.output != []
    requires forall k :: 0 <= k < |Split(rel)| ==> Split(rel)[k] != ".."
    requires IsName(Basename(rel))
    ensures var names := Resolved(env.cwd, ResolveTarget(env, rel).outputPath);
      && |names| > 0
      && names[|names| - 1] == Basename(rel)
      && ResolveTarget(env, rel).extension == Extname(names[|names| - 1])
  {
    WrittenFileEndsWithBasename(env, rel);
    assert ResolveTarget(env, rel).extension == Extname(Basename(rel));
  }

  /** `dir/name` with an ordinary file name (`src/icon.png`, say) is written to a file
      called `name`, and the switch sees that name's extension. */
  lemma ChildFileIsNamed(env: Env, dir: string, name: string)
    requires ValidEnv(env) && env.output != []
    requires IsName(name) && '/' !in name && dir != [] && dir != "/"
    requires forall k :: 0 <= k < |Split(dir + "/" + name)| ==> Split(dir + "/" + name)[k] != ".."
    ensures var t := ResolveTarget(env, dir + "/" + name);
      var names := Resolved(env.cwd, t.outputPath);
      && |names| > 0
      && names[|names| - 1] == name
      && t.extension == Extname(name)
  {
    DirnameBasenameOfChild(dir, name);
    WrittenFileIsNamedByBasename(env, dir + "/" + name);
  }

  /** The target is one normalisation step, by the base name, from the folder's names. */
  lemma TargetStepsFromFolder(env: Env, rel: string)
    requires ValidEnv(env)
    ensures var t := ResolveTarget(env, rel);
      var names := Resolved(env.cwd, t.folder);
      && IsCanonical(names)
      && Resolved(env.cwd, t.outputPath) == Step(names, Basename(rel), false)
  {
    var cwd := env.cwd;
    var t := ResolveTarget(env, rel);
    var folderOf := Join(env.output, Dirname(rel));
    ResolveRendersResolved(cwd, folderOf);
    var names := Resolved(cwd, folderOf);
    ResolvedOfCanonical(cwd, names);
    ResolvedChildOfCanonical(cwd, names, Basename(rel));
    var fileOf := Join(t.folder, Basename(rel));
    ResolveRendersResolved(cwd, fileOf);
    ResolvedOfCanonical(cwd, Resolved(cwd, fileOf));
  }

  /** A relative path whose base name is `.` (`src/.`) has its own folder as its target, so
      the write would land on a directory. */
  lemma DotBaseNameTargetIsFolder(env: Env, rel: string)
    requires ValidEnv(env) && Basename(rel) == "."
    ensures Resolved(env.cwd, ResolveTarget(env, rel).outputPath) == Resolved(env.cwd, ResolveTarget(env, rel).folder)
  {
    TargetStepsFromFolder(env, rel);
  }

  /** A relative path whose base name is `..` (`src/..`) has the parent of its folder as its
      target (the root stays the root). */
  lemma DotDotBaseNameTargetIsParent(env: Env, rel: string)
    requires ValidEnv(env) && Basename(rel) == ".."
    ensures var names := Resolved(env.cwd, ResolveTarget(env, rel).folder);
      Resolved(env.cwd, ResolveTarget(env, rel).outputPath)
        == if names == [] then [] else names[..|names| - 1]
  {
    TargetStepsFromFolder(env, rel);
    var names := Resolved(env.cwd, ResolveTarget(env, rel).folder);
    if names != [] {
      assert IsName(names[|names| - 1]);
    }
  }

  // ---------------------------------------------------------------------------
  // What written entries contain
  // ---------------------------------------------------------------------------

  /** `webpack:///` + a relative path of path characters is written to that path's target,
      with the content the extension switch selects. */
  lemma PlainModuleIsWritten(env: Env, ops: Foreign, rel: string, source: Option<string>)
    requires ValidEnv(env) && |rel| >= 1 && AllPathChars(rel)
    ensures var t := ResolveTarget(env, rel);
      var d := DecodeContent(ops, t.extension, t.outputPath, source);
      ProcessEntry(env, ops, Scheme + rel, source) == Write(t.folder, d.path, d.payload)
  {
    PlainPathMatches(rel);
  }

  /** The folder a written entry goes to depends on its relative path alone, and so does the
      file, except that for the binary extensions it also depends on whether the data URI
      decodes: two such entries write the same file, so the later entry overwrites the
      earlier one. */
  lemma SameRelativePathSameFile(env: Env, ops: Foreign, p1: string, s1: Option<string>, p2: string, s2: Option<string>)
    requires ValidEnv(env)
    requires ProcessEntry(env, ops, p1, s1).Write? && ProcessEntry(env, ops, p2, s2).Write?
    requires MatchModulePath(p1).value.capture.relative == MatchModulePath(p2).value.capture.relative
    ensures ProcessEntry(env, ops, p1, s1).folder == ProcessEntry(env, ops, p2, s2).folder
    ensures var ext := ResolveTarget(env, MatchModulePath(p1).value.capture.relative).extension;
      (ext !in BinaryExtensions
       || ops.dataUriToBuffer(ops.evalExports(s1)).None? == ops.dataUriToBuffer(ops.evalExports(s2)).None?)
      ==> ProcessEntry(env, ops, p1, s1).path == ProcessEntry(env, ops, p2, s2).path
  {
  }

  // ---------------------------------------------------------------------------
  // One map
  // ---------------------------------------------------------------------------

  /** The entries of a map that are written, each as often as it occurs. */
  function Writes(outcomes: seq<Outcome>): (r: seq<Outcome>)
    ensures forall k :: 0 <= k < |r| ==> r[k].Write?
    ensures forall o :: multiset(r)[o] == (if o.Write? then multiset(outcomes)[o] else 0)
    ensures |r| <= |outcomes|
  {
    if outcomes == [] then []
    else
      var head := if outcomes[0].Write? then [outcomes[0]] else [];
      var rest := Writes(outcomes[1..]);
      WritesCons(outcomes, head, rest);
      head + rest
  }

  /** The multiplicities of `Writes` one entry further on. */
  lemma WritesCons(outcomes: seq<Outcome>, head: seq<Outcome>, rest: seq<Outcome>)
    requires outcomes != [] && head == (if outcomes[0].Write? then [outcomes[0]] else [])
    requires forall o :: multiset(rest)[o] == (if o.Write? then multiset(outcomes[1..])[o] else 0)
    ensures forall o :: multiset(head + rest)[o] == (if o.Write? then multiset(outcomes)[o] else 0)
  {
    assert outcomes == [outcomes[0]] + outcomes[1..];
    assert multiset(outcomes) == multiset([outcomes[0]]) + multiset(outcomes[1..]);
    assert multiset(head + rest) == multiset(head) + multiset(rest);
  }

  /** Every entry of a map has exactly one outcome, at its own index: a skip naming its
      own module path, or a write into its own target folder of what the switch picks,
      at the target with `.js` appended exactly when a binary asset's data URI does not
      decode. */
  lemma EachEntryOneOutcome(env: Env, ops: Foreign, paths: seq<string>, sources: seq<Option<string>>, k: nat)
    requires ValidEnv(env) && k < |paths|
    ensures var r := Unpack(env, ops, paths, sources);
      && |r| == |paths|
      && (r[k].Skip? ==> r[k].modulePath == paths[k])
      && (r[k].Write? ==>
            var t := ResolveTarget(env, MatchModulePath(paths[k]).value.capture.relative);
            var d := DecodeContent(ops, t.extension, t.outputPath, SourceAt(sources, k));
            var fails := ops.dataUriToBuffer(ops.evalExports(SourceAt(sources, k))).None?;
            && r[k].folder == t.folder
            && r[k].path == d.path && r[k].payload == d.payload
            && (r[k].path == t.outputPath || r[k].path == t.outputPath + FallbackSuffix)
            && (r[k].path == t.outputPath + FallbackSuffix <==> t.extension in BinaryExtensions && fails))
  {
    var r := Unpack(env, ops, paths, sources);
    SkippedIffNoPlainMatch(env, ops, paths[k], SourceAt(sources, k));
    if r[k].Write? {
      WrittenEntryShape(env, ops, paths[k], SourceAt(sources, k));
    }
  }

  /** A plain module whose extension is none of the five `case` labels is written verbatim
      to its target. */
  lemma VerbatimModuleIsWritten(env: Env, ops: Foreign, rel: string, source: Option<string>)
    requires ValidEnv(env) && |rel| >= 1 && AllPathChars(rel)
    requires ResolveTarget(env, rel).extension != TextExtension
    requires ResolveTarget(env, rel).extension !in BinaryExtensions
    ensures var t := ResolveTarget(env, rel);
      ProcessEntry(env, ops, Scheme + rel, source) == Write(t.folder, t.outputPath, RawSource(source))
  {
    PlainModuleIsWritten(env, ops, rel, source);
  }

  /** A plain module with a binary extension is written as the decoded bytes to its target
      or, when its data URI does not decode, as the raw entry to the target with `.js`
      appended. */
  lemma BinaryModuleIsWritten(env: Env, ops: Foreign, rel: string, source: Option<string>)
    requires ValidEnv(env) && |rel| >= 1 && AllPathChars(rel)
    requires ResolveTarget(env, rel).extension in BinaryExtensions
    ensures var t := ResolveTarget(env, rel);
      var o := ProcessEntry(env, ops, Scheme + rel, source);
      match ops.dataUriToBuffer(ops.evalExports(source))
      case Some(bytes) => o == Write(t.folder, t.outputPath, DecodedBytes(bytes))
      case None => o == Write(t.folder, t.outputPath + FallbackSuffix, RawSource(source))
  {
    PlainModuleIsWritten(env, ops, rel, source);
    BinaryIsDecodedOrFallsBack(ops, ResolveTarget(env, rel).extension, ResolveTarget(env, rel).outputPath, source);
  }

  /** A four-entry map: a plain module, an image, a hashed duplicate and a path whose
      first character after the scheme (`~` in `webpack:///~/...`, say) is outside the
      path class. Exactly the first two are written; the plain module's raw content goes
      to its target, the image goes to its target or, when its data URI does not decode,
      to the target with `.js` appended; the other two are skipped under their own paths. */
  lemma FourEntryExample(env: Env, ops: Foreign, paths: seq<string>, sources: seq<Option<string>>,
                         app: string, icon: string, dup: string, hash: string, odd: char, other: string)
    requires ValidEnv(env)
    requires |app| >= 1 && AllPathChars(app)
    requires ResolveTarget(env, app).extension != TextExtension
    requires ResolveTarget(env, app).extension !in BinaryExtensions
    requires |icon| >= 1 && AllPathChars(icon) && ResolveTarget(env, icon).extension in BinaryExtensions
    requires |dup| >= 1 && AllPathChars(dup) && IsHashSuffix(hash)
    requires !IsPathChar(odd) && AllPathChars(other)
    requires |paths| == 4 && |sources| == 4
    requires paths[0] == Scheme + app && paths[1] == Scheme + icon
    requires paths[2] == Scheme + dup + hash && paths[3] == Scheme + [odd] + other
    ensures var r := Unpack(env, ops, paths, sources);
      var a, i := ResolveTarget(env, app), ResolveTarget(env, icon);
      && |r| == 4
      && r[0] == Write(a.folder, a.outputPath, RawSource(sources[0]))
      && r[1] == (match ops.dataUriToBuffer(ops.evalExports(sources[1]))
                  case Some(bytes) => Write(i.folder, i.outputPath, DecodedBytes(bytes))
                  case None => Write(i.folder, i.outputPath + FallbackSuffix, RawSource(sources[1])))
      && r[2] == Skip(paths[2])
      && r[3] == Skip(paths[3])
      && |Writes(r)| == 2
  {
    var r := Unpack(env, ops, paths, sources);
    UnpackedEntry(env, ops, paths, sources, 0);
    UnpackedEntry(env, ops, paths, sources, 1);
    UnpackedEntry(env, ops, paths, sources, 2);
    UnpackedEntry(env, ops, paths, sources, 3);
    VerbatimModuleIsWritten(env, ops, app, sources[0]);
    BinaryModuleIsWritten(env, ops, icon, sources[1]);
    HashedModuleIsSkipped(env, ops, dup, hash, sources[2]);
    ForeignCharModuleIsSkipped(env, ops, odd, other, sources[3]);
    WritesOfExample(r);
  }

  /** A plain module path followed by a `?xxxx` hash is skipped. */
  lemma HashedModuleIsSkipped(env: Env, ops: Foreign, rel: string, hash: string, source: Option<string>)
    requires ValidEnv(env) && |rel| >= 1 && AllPathChars(rel) && IsHashSuffix(hash)
    ensures ProcessEntry(env, ops, Scheme + rel + hash, source) == Skip(Scheme + rel + hash)
  {
    HashedPathMatches(rel, hash);
    HashedPathIsSkipped(env, ops, Scheme + rel + hash, source, 0, Capture(rel, Some(hash)));
  }

  /** A module path whose first character after `webpack:///` is outside the path class is
      skipped. */
  lemma ForeignCharModuleIsSkipped(env: Env, ops: Foreign, ch: char, rest: string, source: Option<string>)
    requires ValidEnv(env) && !IsPathChar(ch) && AllPathChars(rest)
    ensures ProcessEntry(env, ops, Scheme + [ch] + rest, source) == Skip(Scheme + [ch] + rest)
  {
    ForeignCharPathNeverMatches(ch, rest);
    UnmatchedPathIsSkipped(env, ops, Scheme + [ch] + rest, source);
  }

  /** A module path whose `?` does not start a four-character hash at the end is skipped. */
  lemma MalformedHashModuleIsSkipped(env: Env, ops: Foreign, rel: string, tail: string, source: Option<string>)
    requires ValidEnv(env) && |rel| >= 1 && AllPathChars(rel)
    requires |tail| >= 1 && tail[0] == '?' && !IsHashSuffix(tail)
    requires forall k :: 0 <= k < |tail| ==> tail[k] != ':'
    ensures ProcessEntry(env, ops, Scheme + rel + tail, source) == Skip(Scheme + rel + tail)
  {
    MalformedHashNeverMatches(rel, tail);
    UnmatchedPathIsSkipped(env, ops, Scheme + rel + tail, source);
  }

  lemma UnpackedEntry(env: Env, ops: Foreign, paths: seq<string>, sources: seq<Option<string>>, k: nat)
    requires ValidEnv(env) && k < |paths| && k < |sources|
    ensures Unpack(env, ops, paths, sources)[k] == ProcessEntry(env, ops, paths[k], sources[k])
  {
  }

  lemma WritesOfExample(r: seq<Outcome>)
    requires |r| == 4 && r[0].Write? && r[1].Write? && r[2].Skip? && r[3].Skip?
    ensures |Writes(r)| == 2
  {
    assert r[3..][1..] == [];
    assert Writes(r[3..]) == [];
    assert r[2..][1..] == r[3..];
    assert Writes(r[2..]) == [];
    assert r[1..][1..] == r[2..];
    assert Writes(r[1..]) == [r[1]];
  }
}
